=== FILE: README.md ===
# Stream tester controller — a Dafny model

`app.js` is a single-page HLS/DASH test player. Most of it is DOM and engine
plumbing. This project models the controller inside it:

- how a play request is resolved to an engine family (HLS.js or dash.js) and a DRM configuration;
- the session state machine: play, stop, loading, clean-up, the stats timer and the stats tick;
- the two sample histories and the chart coordinate arithmetic;
- how the quality and audio selectors are built from an engine and sent back to it.

The model is functional. The page's top-level variables and the page elements
that matter form one `Session` record. Every handler is a pure function from
a session (and the host values it reads) to a `Step`. A `Step` holds the next
session and the calls made on the host and the engines, in order: destroy,
reset, create or revoke an object URL, unload the video, set or clear an
interval, attach or initialise an engine, a command to an engine, a status
message. Object URLs and interval ids are tokens drawn from counters in the
record, the way the host hands them out.

The engines are abstract. An `HlsSnapshot` or `DashSnapshot` holds what the
controller reads from an engine. Each event carries the host values it
depends on: buffered ranges, bandwidth estimates, the live probe, and the
support flags `Hls.isSupported()`, `canPlayType` and `supportsMediaSource()`.

Modules, in dependency order:

- `Wrappers`: `Option`.
- `Text`: the JavaScript string and number conversions the controller relies on: `toLowerCase`, `trim`, `String(n)`, `Number(s)`, `Number.parseInt(s, 10)`.
- `Resolver`: `detectType`, the requested-type override, `createDrmConfig`, and the HLS configuration and DASH settings built from them.
- `History`: the push-and-shift history of 60 samples.
- `Chart`: the coordinate arithmetic of `drawLineChart`.
- `Options`: `setSelectOptions`, the option labels, `updateHlsOptions` and `updateDashOptions`.
- `Dispatch`: the quality and audio `change` handlers, as engine commands.
- `Stats`: `getBufferLength`, `getBitrateKbps`, `detectLive`, the figures of `updateStats`, and the stats interval.
- `Session`: the session record and one transition per handler.
- `Trace`: runs of events from the page's initial state, and the properties of whole runs.

Behaviour of `app.js` a reader may not expect, which the model keeps:

- Type detection lower-cases the name first, so `.M3U8` is HLS too (`Resolver.DetectTypeBySuffix`).
- A play that starts an engine cleans up first. A play whose type stays undetermined cleans up nothing. It only sets the playback flags and reports the problem.
- A local file's object URL is revoked by the clean-up inside `loadHls`/`loadDash`. That happens before HLS.js, dash.js or the video element receives it (`Session.LocalFileRevokedBeforeLoad`, `Session.LocalFileRevokedBeforeNativePlay`).
- A file played with an undetermined type keeps its object URL. The next file play then overwrites it without revoking it (`Trace.UndeterminedFilePlayLeaks`).
- Choosing "auto" in the audio selector does nothing on either engine. It does not re-enable automatic track selection.

## Model

| member | source | states |
|---|---|---|
| Text.ToLower | app.js:127 | `toLowerCase` keeps the length and lowers every ASCII capital, leaving every other character as it is |
| Text.Trim | app.js:134-135 | `trim` drops exactly the leading and trailing whitespace; the result is empty exactly when the input is all whitespace, and otherwise starts and ends with a non-space |
| Text.TrimIdempotent | app.js:134-135 | trimming an already trimmed string changes nothing |
| Text.NatToString | app.js:285 | `String(index)` is a non-empty digit string with no leading zero whose decimal value is the index |
| Text.IntToString | app.js:289 | `String(n)` of an integer such as the current level: a minus sign exactly when negative, followed by the magnitude's digits, and the index string itself when not negative |
| Text.NatToStringInjective | app.js:285 | distinct indices give distinct option values |
| Text.IntToStringIsIndex | app.js:289-316 | the string of an integer equals the option value of index `k` exactly when the integer is `k` |
| Text.NatToStringIsNotAuto | app.js:285 | no index option has the value "auto" |
| Text.JsNumber | app.js:465 | `Number(s)` of a blank string is 0 |
| Text.JsNumberOfIndex | app.js:465-486 | `Number` reads back every index option's value as that index, and reads "auto" as NaN |
| Text.ParseInt | app.js:458 | `parseInt` is NaN exactly when no digit follows the leading whitespace and sign |
| Text.ParseIntOfDecimal | app.js:458 | `parseInt` reads back every decimal string as its value |
| Resolver.DetectType | app.js:126-131 | HLS exactly when the lower-cased name ends in `.m3u8`; otherwise DASH exactly when it ends in `.mpd`; otherwise undetermined |
| Resolver.DetectTypeBySuffix | app.js:126-131 | detection is case-insensitive, stated character by character: HLS, DASH or undetermined by suffix in any mix of cases |
| Resolver.TypeFromSelector | app.js:256-267 | the type selector's value routes to HLS exactly for "hls" and to DASH exactly for "dash" |
| Resolver.ResolveType | app.js:254-256 | the requested type wins unless it is "auto"; then the detected type is used |
| Resolver.ExplicitChoiceOverrides | app.js:254-256 | an explicit "hls" or "dash" overrides any name; with "auto" the type stays undetermined exactly when neither suffix is present |
| Resolver.CreateDrmConfig | app.js:133-142 | a configuration exists exactly when both fields are non-blank, and then it holds both values trimmed |
| Resolver.HlsConfigFor | app.js:146-160 | `emeEnabled` and `drmSystems` are set exactly when there is DRM; `drmSystems` maps only the key system, to the license URL; `lowLatencyMode` is on exactly when the box is checked (off stands for the key being left out) |
| Resolver.DashSetupFor | app.js:206-220 | protection data is set exactly when there is DRM and maps only the key system, to the license URL; low latency is enabled exactly when the box is checked (off stands for `updateSettings` not being called) |
| Resolver.DrmReachesEitherEngine | app.js:149-156 | both engines receive the same key-system-to-license map, exactly when both fields are non-blank, built from the trimmed fields |
| History.LastN | app.js:407-408 | the last `n` samples, or all of them when there are fewer |
| History.Push | app.js:405-408 | a push keeps at most 60 samples, ends with the new sample, and equals the last 60 of the old history plus the sample |
| History.PushAllKeepsNewest | app.js:405-408 | any number of pushes leaves the newest 60 of all samples pushed, oldest first |
| History.PushAllFromEmpty | app.js:405-408 | from an empty history the newest 60 samples are kept; after 61 pushes the first sample is gone |
| Chart.MaxWith | app.js:432 | `Math.max(...data, 1)` bounds every sample and the ceiling, and is one of them |
| Chart.MinWith | app.js:433 | `Math.min(...data, 0)` is below every sample and the floor, and is one of them |
| Chart.ScaleOf | app.js:432-434 | the minimum is `Math.min(...data, 0)` and the range is `Math.max(max - min, 1)` with `max` the `Math.max(...data, 1)`; so the minimum is at most 0, the range at least 1, and every sample lies within [min, min + range] |
| Chart.XWithinWidth | app.js:440 | the x of every index below 60 lies within the canvas width |
| Chart.YWithinHeight | app.js:441 | the y of every sample within the scale lies within the canvas height |
| Chart.ChartPoints | app.js:431-447 | one point per sample; every y lies in [0, height]; with at most 60 samples every x lies in [0, width] |
| Chart.YOfDrawnAt | app.js:441 | `height - ((value - minValue) / range) * height` puts the value where its distance below the top, times the range, equals its distance above the minimum, times the height |
| Chart.YByValue | app.js:439-441 | the y of point `i` is fixed by sample `i`: `(height - y) * range == (data[i] - minValue) * height`, with the minimum and range of `ScaleOf` |
| Chart.XIncreasing | app.js:440 | a later index is drawn strictly further right on a canvas with a width |
| Chart.XByIndex | app.js:439-441 | point `i` sits at `i / 59` of the width, so x strictly increases with the index |
| Chart.YMonotone | app.js:441 | a larger sample never gets a larger y |
| Chart.HigherValueHigherPoint | app.js:439-441 | a sample that is not smaller than another is drawn no lower |
| Chart.ConstantSeriesIsFlat | app.js:432-441 | a constant history is drawn as a horizontal line |
| Chart.EmptyHistoryDrawsNothing | app.js:431 | an empty history yields no points |
| Options.SetSelectOptions | app.js:65-80 | the auto option comes first, then the given options in order; "auto" is selected; the selector is disabled exactly when there is nothing besides auto |
| Options.SelectValue | app.js:289-327 | assigning a value selects the option with that value; with no such option the selector reads "" |
| Options.Kbps | app.js:283 | `Math.round(bitrate / 1000)` lies within half a unit of the exact quotient |
| Options.QualityLabel | app.js:280-312 | "<height>p / <kbps> kbps" when both are known, "<height>p" or "<kbps> kbps" when only one is, and "<fallback> <index + 1>" when neither is; it ends in "kbps" exactly when the bitrate is known |
| Options.TrackLabel | app.js:292-322 | "<name> (<lang>)" when both are present, otherwise whichever is present, otherwise "Track <index + 1>" |
| Options.QualityOptions | app.js:280-286 | one option per level, in order, valued by its index and labelled by its level |
| Options.TrackOptions | app.js:292-296 | one option per track, in order, valued by its index and labelled by its track |
| Options.IndexedValues | app.js:287-289 | in an auto-then-indices selector, the string of an integer is an option exactly when the integer is a listed index |
| Options.UpdateHlsOptions | app.js:277-302 | both selectors list auto then one option per level or track; the quality value is "auto" exactly in auto-level mode, otherwise the current level's index or "" when it has no option; the audio value is "auto" exactly when there are no tracks, otherwise the current track's index or "" |
| Options.FindIndex | app.js:325 | `findIndex` gives the first position holding the current track, or -1 exactly when it is absent |
| Options.UpdateDashOptions | app.js:304-331 | as for HLS with the bitrate infos and the auto-switch flag; the audio value is "auto" exactly when the current track is not among the tracks, and otherwise the index of its first occurrence |
| Options.EmptySelectors | app.js:96-97 | after a reset both selectors hold only auto, selected, and are disabled |
| Dispatch.OnQualityChange | app.js:462-480 | HLS sets the level to -1 for "auto" and to `Number(value)` otherwise; DASH turns auto-switch on for "auto", and otherwise turns it off and then sets the quality; no engine means no call |
| Dispatch.OnAudioChange | app.js:482-503 | "auto" does nothing; HLS sets the audio track to `Number(value)`; DASH switches to the track at that position exactly when there is one, and ignores the request otherwise |
| Dispatch.QualitySelectionUniform | app.js:462-480 | on both engines "auto" re-enables automatic selection, and the option of index `k` disables it and fixes index `k` |
| Dispatch.HlsQualityRoundTrip | app.js:462-469 | choosing any HLS quality option and rebuilding the selectors from the engine shows that option selected again |
| Dispatch.HlsPicksLevel | app.js:462-469 | HLS option `k + 1` carries value `k`, fixes level `k`, and the rebuilt selector shows it |
| Dispatch.HlsPicksAuto | app.js:462-469 | the HLS auto option re-enables automatic levels, and the rebuilt selector shows "auto" |
| Dispatch.DashQualityRoundTrip | app.js:470-478 | choosing any DASH quality option and rebuilding the selectors from the engine shows that option selected again |
| Dispatch.DashPicksLevel | app.js:470-478 | DASH option `k + 1` carries value `k`, fixes quality `k` with auto-switch off, and the rebuilt selector shows it |
| Dispatch.DashPicksAuto | app.js:470-478 | the DASH auto option turns auto-switch on, and the rebuilt selector shows "auto" |
| Dispatch.HlsAudioRoundTrip | app.js:482-489 | choosing HLS audio option `k` asks for track `k`, and the rebuilt selector shows that option |
| Dispatch.DashAudioRoundTrip | app.js:490-500 | choosing DASH audio option `k` switches to the `k`-th track object, and the rebuilt selector finds it at position `k` |
| Stats.BufferLength | app.js:347-357 | never negative; 0 when the read throws or there are no ranges; otherwise the end of the last range minus the playback position, or 0 when that is negative |
| Stats.BitrateKbps | app.js:359-371 | the HLS estimate (or the nominal bandwidth when the estimate is 0) divided by 1000; otherwise the DASH average throughput; otherwise 0; non-zero exactly when one of these sources is |
| Stats.DetectLive | app.js:338-345 | live exactly when the duration is infinite, or HLS reports a finite live sync position, or DASH's `isDynamic()` answers true |
| Stats.MetricsOf | app.js:373-403 | the figures of one tick are the buffer length, the bitrate and the live flag of the engines present; the latency is shown exactly when live, and then it equals the buffer length |
| Stats.NoEngineNoBitrate | app.js:338-371 | with native playback the bitrate is 0 and only an infinite duration counts as live |
| Stats.IntervalFor | app.js:458 | the interval is `parseInt` of the selector value, or 1000 when that is NaN or 0; it is never 0 |
| Stats.IntervalOfDecimal | app.js:458 | a positive decimal interval is taken as is; "0" and "" fall back to 1000 |
| Session.ActiveEngine | app.js:464-479 | the handlers talk to HLS whenever an HLS player exists, otherwise to DASH when one exists |
| Session.ResetStats | app.js:87-102 | the figures are cleared, both selectors hold only auto and are disabled, both histories are emptied, and nothing else changes |
| Session.ReleaseEffects | app.js:105-118 | destroy HLS exactly when present, reset DASH exactly when present, revoke exactly the held object URL, always unload the video, and touch no interval |
| Session.ClearTimerEffects | app.js:119-122 | clear the registered interval, and make no call when there is none |
| Session.CleanupEffects | app.js:104-124 | the clean-up calls release exactly what is held, clear exactly the registered interval, unload the video, and make no other kind of call |
| Session.Cleanup | app.js:104-124 | afterwards there is no engine, no object URL, no source, no timer, empty histories and reset selectors; the playback flags and the token counters are kept |
| Session.CleanupIdempotent | app.js:104-124 | cleaning up twice leaves the same session as once, and the second clean-up only unloads the video |
| Session.CleanupValid | app.js:104-124 | clean-up always yields a session satisfying the invariant |
| Session.LoadHls | app.js:144-196 | clean-up first, then an HLS.js player with the built configuration exactly when supported, else the video element takes the source exactly when it plays HLS natively, else only a status; no token call after the clean-up; the resulting session is the cleaned-up one (selectors reset, figures cleared, autoplay, muted and loop kept) except for the HLS slot and the video's source |
| Session.LoadDash | app.js:198-230 | clean-up first, then a dash.js player with the built settings exactly when supported, else only a status; no token call after the clean-up; the resulting session is the cleaned-up one (selectors reset, figures cleared, autoplay, muted and loop kept) except for the DASH slot |
| Session.ResolveSource | app.js:232-241 | a file gets a new object URL, recorded in the session at once, and is named by its file name; otherwise the trimmed URL is both source and name, and the source is empty exactly when the URL is blank |
| Session.SetFlags | app.js:250-252 | autoplay, muted and loop come from the form, and nothing else changes |
| Session.Route | app.js:250-269 | an undetermined type only sets the flags and reports it; a routed load leaves no object URL; only the held URL is ever revoked |
| Session.RouteCleansUpFirst | app.js:259-266 | a routed play starts with the clean-up of the flagged session and makes no token call after it |
| Session.RouteLeavesCleanSession | app.js:259-266 | a routed play leaves no timer, at most one engine, empty histories, both selectors reset to auto only and no figures shown |
| Session.RouteStartsEngine | app.js:144-230 | when the engine is supported it receives the source and the built configuration as the second-to-last call |
| Session.RouteSlots | app.js:144-230 | HLS fills only the HLS slot, exactly when supported, and gives the video the source exactly for native playback; DASH fills only the DASH slot, exactly when supported |
| Session.HandlePlay | app.js:243-270 | a blank URL with no file only reports it; a file's object URL is created first; only the held URL (or the new one) is revoked; the handle counter moves exactly for a file |
| Session.PlayWithoutRoute | app.js:245-269 | a blank request changes nothing; an undetermined type cleans nothing up, and a file's new object URL stays in the session |
| Session.PlayRouting | app.js:243-270 | a routed play leaves no object URL, no timer, empty histories, both selectors reset to auto only and no figures shown, and the engine slot matching the type and the support flags |
| Session.PlayOfFile | app.js:233-266 | a file play creates the object URL and then runs the load on the session holding it |
| Session.LocalFileRevokedBeforeLoad | app.js:232-270 | as written, a file's object URL is created, then revoked by the clean-up, then handed to HLS.js or dash.js |
| Session.LocalFileRevokedBeforeNativePlay | app.js:186-187 | as written, on the native HLS path a file's object URL is created, revoked by the clean-up, and then given to the video element |
| Session.FilePlayCleansUpInside | app.js:232-270 | between the creation of the object URL and the engine call lies exactly the clean-up of the session holding that URL |
| Session.HandleStop | app.js:272-275 | stop is the clean-up followed by a status |
| Session.StartStatsLoop | app.js:456-460 | the old interval, if any, is cleared before exactly one new one is registered with the parsed interval; nothing else changes |
| Session.UpdateStats | app.js:373-410 | the figures of the tick are shown and pushed onto their histories, oldest dropped past 60; nothing else changes |
| Session.MetadataLoaded | app.js:522-531 | one tick, then a fresh interval replacing the old one, then selectors rebuilt from whichever engine exists; engines, object URL and video are untouched |
| Session.HlsOptionsEvent | app.js:166-174 | an HLS options event rebuilds the selectors only while the HLS slot is occupied |
| Session.DashOptionsEvent | app.js:222-224 | a DASH stream-initialised event rebuilds the selectors only while the DASH slot is occupied |
| Session.ChooseQuality | app.js:462-463 | a choice among the quality options becomes the select element's value; its options, its disabled flag, the audio selector and the rest of the session are unchanged |
| Session.ChooseAudio | app.js:482-483 | a choice among the audio options becomes the select element's value; its options, its disabled flag, the quality selector and the rest of the session are unchanged |
| Session.QualityChanged | app.js:462-480 | the quality handler's calls go to the active engine, in order |
| Session.AudioChanged | app.js:482-503 | the audio handler's calls go to the active engine, in order |
| Trace.Initial | app.js:38-44 | the page starts with no engine, no object URL, no timer and empty histories; it satisfies the invariant, and a clean-up there only unloads the video |
| Trace.PlayValid | app.js:243-270 | a play keeps the invariant (at most one engine, histories of at most 60 samples, fresh tokens) and never moves the handle counter back |
| Trace.ApplyValid | app.js:243-275 | every event keeps the invariant |
| Trace.RunValid | app.js:243-275 | every run of events keeps the invariant |
| Trace.CleanupClearsTimer | app.js:119-122 | the clean-up's calls remove exactly the session's interval from the registered ones |
| Trace.RouteTracksTimer | app.js:259-269 | after a play is routed, the registered intervals are exactly the session's timer |
| Trace.RoutedLoadClearsTimer | app.js:259-266 | a routed load leaves no interval registered and no timer |
| Trace.PlayTracksTimer | app.js:243-270 | after a play, the registered intervals are exactly the session's timer |
| Trace.StartTracksTimer | app.js:456-460 | after the stats loop (re)starts, the only registered interval is the session's timer |
| Trace.ApplyTracksTimer | app.js:456-460 | after any event, the registered intervals are exactly the session's timer |
| Trace.RunTracksTimer | app.js:456-460 | over any run, the registered intervals are exactly the session's timer, so there is at most one |
| Trace.AtMostOneTimer | app.js:456-460 | from the initial page, whatever happens, at most one interval is ever registered and it is the session's timer |
| Trace.PlayHandles | app.js:232-241 | a play revokes at most the held object URL or the one it creates, and keeps none, the old one or the new one |
| Trace.OtherEventHandles | app.js:272-275 | stop, a stats tick, the stats timer and the selector events revoke at most the held object URL, create none, leave the handle counter as it was, and afterwards hold the old object URL or none |
| Trace.ApplyHandles | app.js:232-241 | one event revokes at most the held or the newly created object URL; afterwards the session holds none, the old one or the new one |
| Trace.LostHandleNeverRevoked | app.js:113-116 | an object URL handed out that the session no longer holds is never revoked by any later event |
| Trace.UndeterminedFilePlayKeepsUrl | app.js:232-270 | a file with an undetermined type keeps its new object URL, which is not revoked |
| Trace.FilePlayDropsHeldUrl | app.js:235 | a file play replaces the held object URL without revoking it |
| Trace.UndeterminedFilePlayLeaks | app.js:232-270 | as written, a file played with an undetermined type followed by another file play creates an object URL that no later event ever revokes |

## Left out

- Logging, status rendering and the DOM: `log` and its 120-entry trim, element lookups, `textContent` and `innerHTML` writes. A status message is kept only as a logged call.
- Canvas painting: clearing, filling, the grid lines and stroke calls. Only the point coordinates are modelled.
- Engine internals: HLS.js and dash.js adaptation, segment loading, the DRM exchange, and their error events (`ERROR`, `"error"`). An engine is what the controller reads from it.
- Asynchrony: the HLS `MEDIA_ATTACHED` callback is folded into the attach call, which carries the source, and `video.play()` promises and their "Ready to play" status are not modelled.
- The video element's own events other than `loadedmetadata` (`playing`, `pause`, `waiting`, `ended`, `error`): they only log.
- `formatNumber`/`toFixed`, the resolution and dropped-frame figures, and the playback rate: these are float formatting. The `maxLiveSyncPlaybackRate` of 1.03 is not modelled. Low latency is a flag.
- The `fileInput` `change` and `urlInput` `input` handlers (app.js:509-520): they only clear the other input field. The form is an input to each play.
- Text.ToLower: only ASCII letters are lowered; Unicode case mapping is not modelled.
- Text.JsNumber: only optionally signed decimal integers are read; fractions, exponents, hexadecimal and `Infinity` give NaN. The selector values the handlers read are always index strings, "auto" or "".
- Text.ParseInt: only decimal digits are read, as `parseInt(s, 10)` does, but without a size limit.
- Stats.BitrateKbps: host values are exact reals, and an absent HLS figure reads as 0.
- Interval ids: a timer is present or absent. The host's numbering, including the chance of id 0 being falsy, is not modelled.
- Object identity: DASH tracks are values. `Dispatch.DashAudioRoundTrip` requires the tracks to be distinct, as distinct objects are.
- `video.removeAttribute("src")` and `video.load()` are one unload call.
- Timing: the timer fires only as an event of a run. Real time is not modelled.

=== FILE: chart.dfy ===
/** The coordinate arithmetic of `drawLineChart`: a history of samples
    becomes one point per sample on a canvas of the given size. Values are
    normalised against the smallest and largest sample, with 0 and 1 always
    inside that interval, and placed left to right by index across the
    history's capacity. */
module Chart {
  import opened History

  datatype Point = Point(x: real, y: real)

  /** `Math.max(...data, ceiling)`. */
  function MaxWith(data: seq<real>, ceiling: real): (m: real)
    ensures m >= ceiling
    ensures forall i :: 0 <= i < |data| ==> data[i] <= m
    ensures m == ceiling || exists i :: 0 <= i < |data| && data[i] == m
    decreases |data|
  {
    if data == [] then ceiling
    else
      var rest := MaxWith(data[1..], ceiling);
      assert forall i :: 1 <= i < |data| ==> data[i] == data[1..][i - 1];
      if data[0] > rest then data[0] else rest
  }

  /** `Math.min(...data, floor)`. */
  function MinWith(data: seq<real>, floor: real): (m: real)
    ensures m <= floor
    ensures forall i :: 0 <= i < |data| ==> m <= data[i]
    ensures m == floor || exists i :: 0 <= i < |data| && data[i] == m
    decreases |data|
  {
    if data == [] then floor
    else
      var rest := MinWith(data[1..], floor);
      assert forall i :: 1 <= i < |data| ==> data[i] == data[1..][i - 1];
      if data[0] < rest then data[0] else rest
  }

  /** The vertical scale: the least value (at most 0), and the span
      `max(maxValue - minValue, 1)`, which is at least 1 and covers every
      sample. */
  datatype Scale = Scale(minValue: real, range: real)

  function ScaleOf(data: seq<real>): (s: Scale)
    ensures s.minValue == MinWith(data, 0.0)
    ensures s.range == (if MaxWith(data, 1.0) - s.minValue > 1.0 then MaxWith(data, 1.0) - s.minValue else 1.0)
    ensures s.minValue <= 0.0
    ensures s.range >= 1.0
    ensures forall i :: 0 <= i < |data| ==> s.minValue <= data[i] <= s.minValue + s.range
  {
    var maxValue := MaxWith(data, 1.0);
    var minValue := MinWith(data, 0.0);
    var range := if maxValue - minValue > 1.0 then maxValue - minValue else 1.0;
    Scale(minValue, range)
  }

  /** x of the sample at `index`: `index / (maxHistory - 1) * width`. */
  function XOf(index: nat, width: nat): real {
    index as real / (MaxHistory - 1) as real * width as real
  }

  /** y of sample `v`: `height - (v - minValue) / range * height`. */
  function YOf(s: Scale, v: real, height: nat): real
    requires s.range >= 1.0
  {
    height as real - (v - s.minValue) / s.range * height as real
  }

  lemma ScaledBelow(a: real, b: real, h: real)
    requires 0.0 <= a <= b && h >= 0.0
    ensures a * h <= b * h
  {
  }

  lemma XWithinWidth(index: nat, width: nat)
    requires index < MaxHistory
    ensures 0.0 <= XOf(index, width) <= width as real
  {
    var f := index as real / (MaxHistory - 1) as real;
    assert 0.0 <= f <= 1.0;
    ScaledBelow(f, 1.0, width as real);
  }

  lemma YWithinHeight(s: Scale, v: real, height: nat)
    requires s.range >= 1.0 && s.minValue <= v <= s.minValue + s.range
    ensures 0.0 <= YOf(s, v, height) <= height as real
  {
    var t := (v - s.minValue) / s.range;
    assert 0.0 <= t;
    assert t <= 1.0 by {
      assert v - s.minValue <= s.range;
      assert t * s.range == v - s.minValue;
    }
    ScaledBelow(t, 1.0, height as real);
    ScaledBelow(0.0, t, height as real);
  }

  /** The points `drawLineChart` joins, one per sample, oldest first. */
  function ChartPoints(data: seq<real>, width: nat, height: nat): (pts: seq<Point>)
    ensures |pts| == |data|
    ensures forall i :: 0 <= i < |pts| ==> 0.0 <= pts[i].y <= height as real
    ensures |data| <= MaxHistory ==> forall i :: 0 <= i < |pts| ==> 0.0 <= pts[i].x <= width as real
  {
    if data == [] then []
    else
      var s := ScaleOf(data);
      assert forall i :: 0 <= i < |data| ==> 0.0 <= YOf(s, data[i], height) <= height as real by {
        forall i | 0 <= i < |data| ensures 0.0 <= YOf(s, data[i], height) <= height as real {
          YWithinHeight(s, data[i], height);
        }
      }
      assert |data| <= MaxHistory ==> forall i :: 0 <= i < |data| ==> 0.0 <= XOf(i, width) <= width as real by {
        if |data| <= MaxHistory {
          forall i | 0 <= i < |data| ensures 0.0 <= XOf(i, width) <= width as real {
            XWithinWidth(i, width);
          }
        }
      }
      seq(|data|, i requires 0 <= i < |data| => Point(XOf(i, width), YOf(s, data[i], height)))
  }

  /** If `y` lies the share `d / r` of the height `h` below the top, then
      the gap above it, scaled by `r`, is `d` times the height. */
  lemma ScaledGap(h: real, y: real, r: real, d: real)
    requires r >= 1.0 && y == h - d / r * h
    ensures (h - y) * r == d * h
  {
    var t := d / r;
    assert t * r == d;
    calc {
      (h - y) * r;
      (t * h) * r;
      (t * r) * h;
    }
  }

  /** `y` is where value `v` sits on a canvas `height` high under scale
      `s`: its distance below the top, times the range, is the value's
      distance above the minimum, times the height. */
  predicate DrawnAt(y: real, s: Scale, v: real, height: nat) {
    (height as real - y) * s.range == (v - s.minValue) * height as real
  }

  /** `YOf` puts every value where `DrawnAt` says. */
  lemma YOfDrawnAt(s: Scale, v: real, height: nat)
    requires s.range >= 1.0
    ensures DrawnAt(YOf(s, v, height), s, v, height)
  {
    ScaledGap(height as real, YOf(s, v, height), s.range, v - s.minValue);
  }

  /** Point `i` is drawn at the y of its sample. */
  lemma PointY(data: seq<real>, width: nat, height: nat, i: nat)
    requires i < |data|
    ensures ChartPoints(data, width, height)[i].y == YOf(ScaleOf(data), data[i], height)
  {
  }

  /** The y of every point: its sample's distance above the scale's
      minimum, as a share of the range, measured down from the top. */
  lemma YByValue(data: seq<real>, width: nat, height: nat, i: nat)
    requires i < |data|
    ensures DrawnAt(ChartPoints(data, width, height)[i].y, ScaleOf(data), data[i], height)
  {
    PointY(data, width, height, i);
    YOfDrawnAt(ScaleOf(data), data[i], height);
  }

  lemma XIncreasing(i: nat, j: nat, width: nat)
    requires i < j && width > 0
    ensures XOf(i, width) < XOf(j, width)
  {
    var d := (MaxHistory - 1) as real;
    var fi := i as real / d;
    var fj := j as real / d;
    assert fi < fj;
    ScaledStrictly(fi, fj, width as real);
    assert XOf(i, width) == fi * width as real;
    assert XOf(j, width) == fj * width as real;
  }

  lemma ScaledStrictly(a: real, b: real, h: real)
    requires a < b && h > 0.0
    ensures a * h < b * h
  {
    assert (b - a) * h > 0.0;
  }

  /** Samples sit left to right by index, at `index / (maxHistory - 1)` of
      the width, so the x coordinates strictly increase whenever the canvas
      has a width. */
  lemma XByIndex(data: seq<real>, width: nat, height: nat)
    ensures var pts := ChartPoints(data, width, height);
      forall i :: 0 <= i < |pts| ==> pts[i].x * (MaxHistory - 1) as real == i as real * width as real
    ensures var pts := ChartPoints(data, width, height);
      width > 0 ==> forall i, j :: 0 <= i < j < |pts| ==> pts[i].x < pts[j].x
  {
    var pts := ChartPoints(data, width, height);
    forall i | 0 <= i < |pts|
      ensures pts[i].x * (MaxHistory - 1) as real == i as real * width as real
    {
      assert pts[i].x == XOf(i, width);
    }
    if width > 0 {
      forall i, j | 0 <= i < j < |pts| ensures pts[i].x < pts[j].x {
        XIncreasing(i, j, width);
      }
    }
  }

  lemma YMonotone(s: Scale, a: real, b: real, height: nat)
    requires s.range >= 1.0 && s.minValue <= a <= b
    ensures YOf(s, b, height) <= YOf(s, a, height)
  {
    var ta := (a - s.minValue) / s.range;
    var tb := (b - s.minValue) / s.range;
    assert ta <= tb by {
      assert ta * s.range == a - s.minValue;
      assert tb * s.range == b - s.minValue;
    }
    assert 0.0 <= ta;
    ScaledBelow(ta, tb, height as real);
  }

  /** A larger sample is drawn no lower: y (measured downwards) decreases as
      the value grows. */
  lemma HigherValueHigherPoint(data: seq<real>, width: nat, height: nat, i: nat, j: nat)
    requires i < |data| && j < |data| && data[i] <= data[j]
    ensures var pts := ChartPoints(data, width, height); pts[j].y <= pts[i].y
  {
    var s := ScaleOf(data);
    var pts := ChartPoints(data, width, height);
    assert pts[i].y == YOf(s, data[i], height);
    assert pts[j].y == YOf(s, data[j], height);
    YMonotone(s, data[i], data[j], height);
  }

  /** A constant series is drawn as a flat line: every point has the same
      height, and no division by zero can occur because the span is at
      least 1. */
  lemma ConstantSeriesIsFlat(data: seq<real>, width: nat, height: nat)
    requires forall i :: 0 <= i < |data| ==> data[i] == data[0]
    ensures var pts := ChartPoints(data, width, height);
      forall i :: 0 <= i < |pts| ==> pts[i].y == pts[0].y
  {
    var pts := ChartPoints(data, width, height);
    forall i | 0 <= i < |pts| ensures pts[i].y == pts[0].y {
      HigherValueHigherPoint(data, width, height, i, 0);
      HigherValueHigherPoint(data, width, height, 0, i);
    }
  }

  /** An empty history draws nothing, so a cleared history is redrawn as
      an empty chart. */
  lemma EmptyHistoryDrawsNothing(width: nat, height: nat)
    ensures ChartPoints([], width, height) == []
  {
  }
}

=== FILE: dispatch.dfy ===
/** The quality and audio `change` handlers: the selected value becomes the
    list of calls made on whichever engine is active. The engines' own
    reaction to those calls is summarised by `QualityMode`, which lets the
    handlers be checked against the selectors they are fed from. */
module Dispatch {
  import opened Wrappers
  import opened Text
  import opened Options

  /** The occupied engine slot when a selector changes. */
  datatype EngineKind = NoEngine | HlsEngine | DashEngine

  /** Calls made on an engine:
      `hlsPlayer.currentLevel = n`, `hlsPlayer.audioTrack = n`,
      `setAutoSwitchQualityFor("video", b)`, `setQualityFor("video", n)` and
      `setCurrentTrack(track)`. */
  datatype Command =
    | HlsSetCurrentLevel(level: Num)
    | HlsSetAudioTrack(track: Num)
    | DashSetAutoSwitch(enabled: bool)
    | DashSetQuality(quality: Num)
    | DashSetCurrentTrack(audio: Track)

  /** The quality `change` handler. HLS: level -1 for "auto", otherwise
      `Number(value)`. DASH: auto-switch on for "auto"; otherwise auto-switch
      off and then the quality `Number(value)`. No engine: nothing. */
  function OnQualityChange(kind: EngineKind, value: string): (cmds: seq<Command>)
    ensures kind == NoEngine ==> cmds == []
    ensures kind == HlsEngine ==> |cmds| == 1 && cmds[0].HlsSetCurrentLevel?
    ensures kind == HlsEngine && value == "auto" ==> cmds[0].level == Int(-1)
    ensures kind == HlsEngine && value != "auto" ==> cmds[0].level == JsNumber(value)
    ensures kind == DashEngine ==> |cmds| >= 1 && cmds[0] == DashSetAutoSwitch(value == "auto")
    ensures kind == DashEngine && value == "auto" ==> |cmds| == 1
    ensures kind == DashEngine && value != "auto" ==> cmds == [DashSetAutoSwitch(false), DashSetQuality(JsNumber(value))]
  {
    match kind
    case HlsEngine =>
      [HlsSetCurrentLevel(if value == "auto" then Int(-1) else JsNumber(value))]
    case DashEngine =>
      if value == "auto" then [DashSetAutoSwitch(true)]
      else [DashSetAutoSwitch(false), DashSetQuality(JsNumber(value))]
    case NoEngine => []
  }

  /** The audio `change` handler. "auto" does nothing on either engine.
      HLS: `audioTrack = Number(value)`. DASH: the track at position
      `Number(value)` of the engine's current audio tracks, if there is one;
      a position with no track is ignored. */
  function OnAudioChange(kind: EngineKind, dashTracks: seq<Track>, value: string): (cmds: seq<Command>)
    ensures value == "auto" || kind == NoEngine ==> cmds == []
    ensures kind == HlsEngine && value != "auto" ==> cmds == [HlsSetAudioTrack(JsNumber(value))]
    ensures kind == DashEngine ==>
      (cmds != [] <==> value != "auto" && JsNumber(value).Int? && 0 <= JsNumber(value).i < |dashTracks|)
    ensures kind == DashEngine && cmds != [] ==>
      cmds == [DashSetCurrentTrack(dashTracks[JsNumber(value).i])]
  {
    if value == "auto" then []
    else
      match kind
      case HlsEngine => [HlsSetAudioTrack(JsNumber(value))]
      case DashEngine =>
        var n := JsNumber(value);
        if n.Int? && 0 <= n.i < |dashTracks| then [DashSetCurrentTrack(dashTracks[n.i])] else []
      case NoEngine => []
  }

  // ---------------------------------------------------------------------
  // How the engines react

  /** An engine's quality state: automatic selection or not, and the
      manually chosen index. */
  datatype QualityMode = QualityMode(auto: bool, index: Num)

  /** The effect of one call on the quality state. Setting the HLS level to
      -1 turns automatic selection back on; any other level fixes it. On
      DASH the auto-switch flag and the quality are set separately. */
  function ApplyQuality(m: QualityMode, c: Command): QualityMode {
    match c
    case HlsSetCurrentLevel(n) => if n == Int(-1) then m.(auto := true) else QualityMode(false, n)
    case DashSetAutoSwitch(b) => m.(auto := b)
    case DashSetQuality(n) => m.(index := n)
    case _ => m
  }

  function ApplyQualityAll(m: QualityMode, cmds: seq<Command>): QualityMode
    decreases |cmds|
  {
    if cmds == [] then m else ApplyQualityAll(ApplyQuality(m, cmds[0]), cmds[1..])
  }

  /** Both engine families treat the quality selector alike: choosing
      "auto" re-enables automatic selection, and choosing the option of
      index `k` turns automatic selection off and fixes index `k`. */
  lemma QualitySelectionUniform(kind: EngineKind, m: QualityMode, k: nat)
    requires kind != NoEngine
    ensures ApplyQualityAll(m, OnQualityChange(kind, "auto")).auto
    ensures ApplyQualityAll(m, OnQualityChange(kind, NatToString(k))) == QualityMode(false, Int(k))
  {
    JsNumberOfIndex(k);
    NatToStringIsNotAuto(k);
    var cmds := OnQualityChange(kind, NatToString(k));
    if kind == DashEngine {
      assert cmds == [DashSetAutoSwitch(false), DashSetQuality(Int(k))];
      var m1 := ApplyQuality(m, cmds[0]);
      assert cmds[1..][1..] == [];
      assert ApplyQualityAll(m, cmds) == ApplyQualityAll(ApplyQuality(m1, cmds[1]), []);
    } else {
      assert cmds == [HlsSetCurrentLevel(Int(k))];
      assert ApplyQualityAll(m, cmds) == ApplyQualityAll(ApplyQuality(m, cmds[0]), []);
    }
  }

  /** Choosing a quality option on HLS and then rebuilding the selectors from
      the engine shows that option selected again. */
  lemma HlsQualityRoundTrip(snap: HlsSnapshot, j: nat)
    requires j <= |snap.levels|
    ensures var v := UpdateHlsOptions(snap).quality.options[j].value;
      var m := ApplyQualityAll(QualityMode(snap.autoLevelEnabled, Int(snap.currentLevel)),
                               OnQualityChange(HlsEngine, v));
      var after := snap.(autoLevelEnabled := m.auto,
                         currentLevel := if m.index.Int? then m.index.i else snap.currentLevel);
      UpdateHlsOptions(after).quality.value == v
  {
    if j > 0 {
      HlsPicksLevel(snap, j - 1);
    } else {
      HlsPicksAuto(snap);
    }
  }

  /** Option `k + 1` of the Hls quality selector fixes level `k`, which the
      rebuilt selector shows. */
  lemma HlsPicksLevel(snap: HlsSnapshot, k: nat)
    requires k < |snap.levels|
    ensures var v := UpdateHlsOptions(snap).quality.options[k + 1].value;
      && v == NatToString(k)
      && ApplyQualityAll(QualityMode(snap.autoLevelEnabled, Int(snap.currentLevel)), OnQualityChange(HlsEngine, v))
           == QualityMode(false, Int(k))
      && UpdateHlsOptions(snap.(autoLevelEnabled := false, currentLevel := k)).quality.value == v
  {
    QualityOptionValue(snap.levels, "Level", UpdateHlsOptions(snap).quality.options, k);
    QualitySelectionUniform(HlsEngine, QualityMode(snap.autoLevelEnabled, Int(snap.currentLevel)), k);
  }

  /** The auto option of the Hls quality selector turns automatic selection
      on, which the rebuilt selector shows. */
  lemma HlsPicksAuto(snap: HlsSnapshot)
    ensures var v := UpdateHlsOptions(snap).quality.options[0].value;
      && v == "auto"
      && ApplyQualityAll(QualityMode(snap.autoLevelEnabled, Int(snap.currentLevel)), OnQualityChange(HlsEngine, v)).auto
      && forall c: int :: UpdateHlsOptions(snap.(autoLevelEnabled := true, currentLevel := c)).quality.value == v
  {
    QualitySelectionUniform(HlsEngine, QualityMode(snap.autoLevelEnabled, Int(snap.currentLevel)), 0);
  }

  /** The same round trip on DASH. */
  lemma DashQualityRoundTrip(snap: DashSnapshot, j: nat)
    requires j <= |snap.bitrates|
    ensures var v := UpdateDashOptions(snap).quality.options[j].value;
      var m := ApplyQualityAll(QualityMode(snap.autoSwitch, Int(snap.quality)),
                               OnQualityChange(DashEngine, v));
      var after := snap.(autoSwitch := m.auto,
                         quality := if m.index.Int? then m.index.i else snap.quality);
      UpdateDashOptions(after).quality.value == v
  {
    if j > 0 {
      DashPicksLevel(snap, j - 1);
    } else {
      DashPicksAuto(snap);
    }
  }

  /** Option `k + 1` of the Dash quality selector fixes level `k`, which the
      rebuilt selector shows. */
  lemma DashPicksLevel(snap: DashSnapshot, k: nat)
    requires k < |snap.bitrates|
    ensures var v := UpdateDashOptions(snap).quality.options[k + 1].value;
      && v == NatToString(k)
      && ApplyQualityAll(QualityMode(snap.autoSwitch, Int(snap.quality)), OnQualityChange(DashEngine, v))
           == QualityMode(false, Int(k))
      && UpdateDashOptions(snap.(autoSwitch := false, quality := k)).quality.value == v
  {
    QualityOptionValue(snap.bitrates, "Quality", UpdateDashOptions(snap).quality.options, k);
    QualitySelectionUniform(DashEngine, QualityMode(snap.autoSwitch, Int(snap.quality)), k);
  }

  /** The auto option of the Dash quality selector turns automatic selection
      on, which the rebuilt selector shows. */
  lemma DashPicksAuto(snap: DashSnapshot)
    ensures var v := UpdateDashOptions(snap).quality.options[0].value;
      && v == "auto"
      && ApplyQualityAll(QualityMode(snap.autoSwitch, Int(snap.quality)), OnQualityChange(DashEngine, v)).auto
      && forall c: int :: UpdateDashOptions(snap.(autoSwitch := true, quality := c)).quality.value == v
  {
    QualitySelectionUniform(DashEngine, QualityMode(snap.autoSwitch, Int(snap.quality)), 0);
  }

  /** Choosing audio track option `k` on HLS asks for track `k`, and
      rebuilding the selectors once the engine switched shows option `k`
      selected. */
  lemma HlsAudioRoundTrip(hls: HlsSnapshot, dashTracks: seq<Track>, k: nat)
    requires k < |hls.audioTracks|
    ensures var v := UpdateHlsOptions(hls).audio.options[k + 1].value;
      && OnAudioChange(HlsEngine, dashTracks, v) == [HlsSetAudioTrack(Int(k))]
      && UpdateHlsOptions(hls.(audioTrack := k)).audio.value == v
  {
    JsNumberOfIndex(k);
    NatToStringIsNotAuto(k);
    var opts := UpdateHlsOptions(hls).audio.options;
    assert opts[k + 1] == TrackOptions(hls.audioTracks)[k];
  }

  /** The same on DASH: option `k` asks for the `k`-th of the engine's audio
      tracks. The tracks are distinct objects, so the rebuilt selector finds
      the chosen track at its own position. */
  lemma DashAudioRoundTrip(dash: DashSnapshot, k: nat)
    requires k < |dash.tracks|
    requires forall a, b :: 0 <= a < b < |dash.tracks| ==> dash.tracks[a] != dash.tracks[b]
    ensures var v := UpdateDashOptions(dash).audio.options[k + 1].value;
      && OnAudioChange(DashEngine, dash.tracks, v) == [DashSetCurrentTrack(dash.tracks[k])]
      && UpdateDashOptions(dash.(currentTrack := Some(dash.tracks[k]))).audio.value == v
  {
    DashAudioAsks(dash, k);
    DashAudioShown(dash, k);
  }

  lemma DashAudioAsks(dash: DashSnapshot, k: nat)
    requires k < |dash.tracks|
    ensures OnAudioChange(DashEngine, dash.tracks, UpdateDashOptions(dash).audio.options[k + 1].value)
      == [DashSetCurrentTrack(dash.tracks[k])]
  {
    JsNumberOfIndex(k);
    NatToStringIsNotAuto(k);
    TrackOptionValue(dash.tracks, UpdateDashOptions(dash).audio.options, k);
  }

  lemma DashAudioShown(dash: DashSnapshot, k: nat)
    requires k < |dash.tracks|
    requires forall a, b :: 0 <= a < b < |dash.tracks| ==> dash.tracks[a] != dash.tracks[b]
    ensures UpdateDashOptions(dash.(currentTrack := Some(dash.tracks[k]))).audio.value
      == UpdateDashOptions(dash).audio.options[k + 1].value
  {
    TrackOptionValue(dash.tracks, UpdateDashOptions(dash).audio.options, k);
    FindDistinct(dash.tracks, k);
    var after := dash.(currentTrack := Some(dash.tracks[k]));
    assert after.currentTrack.value in after.tracks;
  }

  /** Option `k + 1` of a quality selector is valued by index `k`. */
  lemma QualityOptionValue(levels: seq<Level>, fallback: string, opts: seq<SelectOption>, k: nat)
    requires k < |levels| && opts == [AutoOption] + QualityOptions(levels, fallback)
    ensures opts[k + 1].value == NatToString(k)
  {
    assert opts[k + 1] == QualityOptions(levels, fallback)[k];
  }

  /** Option `k + 1` of an audio selector is valued by index `k`. */
  lemma TrackOptionValue(tracks: seq<Track>, opts: seq<SelectOption>, k: nat)
    requires k < |tracks| && opts == [AutoOption] + TrackOptions(tracks)
    ensures opts[k + 1].value == NatToString(k)
  {
    assert opts[k + 1] == TrackOptions(tracks)[k];
  }

  /** Among distinct tracks, track `k` is found at position `k`. */
  lemma FindDistinct(tracks: seq<Track>, k: nat)
    requires k < |tracks|
    requires forall a, b :: 0 <= a < b < |tracks| ==> tracks[a] != tracks[b]
    ensures FindIndex(tracks, Some(tracks[k])) == k
  {
    var i := FindIndex(tracks, Some(tracks[k]));
    assert tracks[k] in tracks;
    assert tracks[i] == tracks[k];
  }
}

=== FILE: history.dfy ===
/** The two fixed-capacity sample histories (buffer seconds and bitrate)
    that `updateStats` feeds and the charts draw, oldest sample first. */
module History {

  /** `maxHistory`: the capacity of each history. */
  const MaxHistory: nat := 60

  /** The last `n` elements of `s`, or all of `s` when it is shorter. */
  function LastN(s: seq<real>, n: nat): (r: seq<real>)
    ensures |r| == if |s| <= n then |s| else n
    ensures r == s[|s| - |r|..]
  {
    if |s| <= n then s else s[|s| - n..]
  }

  /** One tick's push: append the sample, then drop the oldest sample once
      the length exceeds the capacity. */
  function Push(h: seq<real>, v: real): (r: seq<real>)
    ensures |h| <= MaxHistory ==> |r| <= MaxHistory
    ensures |h| <= MaxHistory ==> r == LastN(h + [v], MaxHistory)
    ensures r != [] && r[|r| - 1] == v
  {
    var p := h + [v];
    if |p| > MaxHistory then p[1..] else p
  }

  /** Pushing the samples of `vs` one after another, first to last. */
  function PushAll(h: seq<real>, vs: seq<real>): seq<real>
    decreases |vs|
  {
    if vs == [] then h else PushAll(Push(h, vs[0]), vs[1..])
  }

  lemma LastNAppend(prior: seq<real>, v: real)
    ensures LastN(LastN(prior, MaxHistory) + [v], MaxHistory) == LastN(prior + [v], MaxHistory)
  {
    var p := prior + [v];
    var h := LastN(prior, MaxHistory);
    assert h + [v] == p[|p| - |h + [v]|..];
  }

  /** A history that holds the last samples of `prior` holds, after the
      samples of `vs` are pushed, the last samples of `prior + vs`: at most
      sixty values, the newest ones, in the order they were pushed. */
  lemma {:induction false} PushAllKeepsNewest(prior: seq<real>, vs: seq<real>)
    ensures PushAll(LastN(prior, MaxHistory), vs) == LastN(prior + vs, MaxHistory)
    decreases |vs|
  {
    if vs != [] {
      var h := LastN(prior, MaxHistory);
      LastNAppend(prior, vs[0]);
      assert Push(h, vs[0]) == LastN(prior + [vs[0]], MaxHistory);
      PushAllKeepsNewest(prior + [vs[0]], vs[1..]);
      assert prior + [vs[0]] + vs[1..] == prior + vs;
    }
  }

  /** From an empty history, pushing 61 samples `v0 .. v60` leaves exactly
      `v1 .. v60`; in general it leaves the newest sixty. */
  lemma PushAllFromEmpty(vs: seq<real>)
    ensures |PushAll([], vs)| <= MaxHistory
    ensures PushAll([], vs) == LastN(vs, MaxHistory)
    ensures |vs| == MaxHistory + 1 ==> PushAll([], vs) == vs[1..]
  {
    PushAllKeepsNewest([], vs);
    assert [] + vs == vs;
  }
}

=== FILE: options.dfy ===
/** The quality and audio selectors and how they are rebuilt from an engine.
    Each engine is seen through a snapshot of what the controller reads
    from it: HLS levels or DASH bitrate infos as (height, bitrate) pairs,
    audio tracks as (name or label, language) pairs, the auto flag and the
    current indices. A height, bitrate or string that is absent or falsy
    in the engine is 0 or "" here. */
module Options {
  import opened Wrappers
  import opened Text

  datatype Level = Level(height: int, bitrate: int)

  /** An audio track: `name` is the HLS track name or the DASH track
      label. */
  datatype Track = Track(name: string, lang: string)

  /** What `updateHlsOptions` reads from the HLS player. */
  datatype HlsSnapshot = HlsSnapshot(
    levels: seq<Level>,
    autoLevelEnabled: bool,
    currentLevel: int,
    audioTracks: seq<Track>,
    audioTrack: int)

  /** What `updateDashOptions` reads from the DASH player; `currentTrack`
      is the object `getCurrentTrackFor("audio")` returns. */
  datatype DashSnapshot = DashSnapshot(
    bitrates: seq<Level>,
    autoSwitch: bool,
    quality: int,
    tracks: seq<Track>,
    currentTrack: Option<Track>)

  datatype SelectOption = SelectOption(value: string, text: string)

  /** A `<select>` element: its options in order, its value and whether it
      is disabled. */
  datatype Selector = Selector(options: seq<SelectOption>, value: string, disabled: bool)

  /** The two selectors the controller maintains. */
  datatype Selectors = Selectors(quality: Selector, audio: Selector)

  /** The option `setSelectOptions` always puts first. */
  const AutoOption := SelectOption("auto", "Auto")

  predicate HasValue(options: seq<SelectOption>, v: string) {
    exists i :: 0 <= i < |options| && options[i].value == v
  }

  /** `setSelectOptions`: the auto option followed by the given ones; the
      first option ("auto") ends up selected, and the selector is disabled
      exactly when there is nothing besides auto. */
  function SetSelectOptions(opts: seq<SelectOption>): (sel: Selector)
    ensures |sel.options| == |opts| + 1
    ensures sel.options[0] == AutoOption && sel.options[1..] == opts
    ensures sel.value == "auto"
    ensures sel.disabled <==> |opts| == 0
  {
    Selector([AutoOption] + opts, "auto", |opts| == 0)
  }

  /** Assigning `select.value = v`: an option with value `v` becomes the
      selected one; when there is none nothing is selected and the value
      reads "". */
  function SelectValue(sel: Selector, v: string): (r: Selector)
    ensures r.options == sel.options && r.disabled == sel.disabled
    ensures HasValue(sel.options, v) ==> r.value == v
    ensures !HasValue(sel.options, v) ==> r.value == ""
  {
    sel.(value := if HasValue(sel.options, v) then v else "")
  }

  /** `Math.round(bitrate / 1000)`: the nearest integer, halves rounding
      up. */
  function Kbps(bitrate: int): (k: int)
    ensures 1000 * k - 500 <= bitrate < 1000 * k + 500
  {
    (bitrate + 500) / 1000
  }

  lemma ConcatEnds(a: string, b: string)
    ensures StartsWith(a + b, a) && EndsWith(a + b, b)
  {
    assert (a + b)[..|a|] == a;
    assert (a + b)[|a|..] == b;
  }

  /** The label of quality level `index`: "<height>p", "<kbps> kbps" or both
      joined by " / ", for the parts that are present, and
      "<fallback> <index + 1>" when neither is. It ends in "kbps" exactly
      when the bitrate is known. */
  function QualityLabel(level: Level, index: nat, fallback: string): (caption: string)
    ensures caption != []
    ensures level.height == 0 && level.bitrate == 0 ==>
      caption == fallback + " " + NatToString(index + 1)
    ensures level.height != 0 ==> StartsWith(caption, IntToString(level.height) + "p")
    ensures level.height != 0 && level.bitrate == 0 ==> caption == IntToString(level.height) + "p"
    ensures level.height == 0 && level.bitrate != 0 ==>
      caption == IntToString(Kbps(level.bitrate)) + " kbps"
    ensures level.bitrate != 0 ==> EndsWith(caption, IntToString(Kbps(level.bitrate)) + " kbps")
    ensures level.height != 0 && level.bitrate != 0 ==>
      caption == (IntToString(level.height) + "p") + " / " + (IntToString(Kbps(level.bitrate)) + " kbps")
    ensures caption[|caption| - 1] == 's' <==> level.bitrate != 0
  {
    var heightPart := IntToString(level.height) + "p";
    var ratePart := IntToString(Kbps(level.bitrate)) + " kbps";
    if level.bitrate != 0 then
      if level.height != 0 then
        ConcatEnds(heightPart, " / " + ratePart);
        ConcatEnds(heightPart + " / ", ratePart);
        var c := heightPart + " / " + ratePart;
        assert c[|c| - 1] == ratePart[|ratePart| - 1];
        c
      else
        ratePart
    else if level.height != 0 then
      heightPart
    else
      var digits := NatToString(index + 1);
      var c := fallback + " " + digits;
      assert c[|c| - 1] == digits[|digits| - 1];
      c
  }

  /** The label of audio track `index`: "<name> (<lang>)" when both are
      present, otherwise whichever is present, otherwise
      "Track <index + 1>". */
  function TrackLabel(track: Track, index: nat): (caption: string)
    ensures caption != []
    ensures track.name != [] ==> StartsWith(caption, track.name)
    ensures track.name != [] && track.lang != [] ==> EndsWith(caption, " (" + track.lang + ")")
    ensures track.name != [] && track.lang != [] ==> caption == track.name + " (" + track.lang + ")"
    ensures track.name != [] && track.lang == [] ==> caption == track.name
    ensures track.name == [] && track.lang != [] ==> caption == track.lang
    ensures track.name == [] && track.lang == [] ==> caption == "Track " + NatToString(index + 1)
  {
    if track.name != [] && track.lang != [] then
      var caption := track.name + " (" + track.lang + ")";
      assert caption[..|track.name|] == track.name;
      assert caption[|caption| - |" (" + track.lang + ")"|..] == " (" + track.lang + ")";
      caption
    else if track.name != [] then track.name
    else if track.lang != [] then track.lang
    else "Track " + NatToString(index + 1)
  }

  /** One option per level, valued by its index. */
  function QualityOptions(levels: seq<Level>, fallback: string): (opts: seq<SelectOption>)
    ensures |opts| == |levels|
    ensures forall k :: 0 <= k < |levels| ==>
      opts[k] == SelectOption(NatToString(k), QualityLabel(levels[k], k, fallback))
  {
    seq(|levels|, k requires 0 <= k < |levels| =>
      SelectOption(NatToString(k), QualityLabel(levels[k], k, fallback)))
  }

  /** One option per audio track, valued by its index. */
  function TrackOptions(tracks: seq<Track>): (opts: seq<SelectOption>)
    ensures |opts| == |tracks|
    ensures forall k :: 0 <= k < |tracks| ==>
      opts[k] == SelectOption(NatToString(k), TrackLabel(tracks[k], k))
  {
    seq(|tracks|, k requires 0 <= k < |tracks| =>
      SelectOption(NatToString(k), TrackLabel(tracks[k], k)))
  }

  /** Options `[auto, 0, 1, ..., n - 1]` by value. */
  predicate IndexedAfterAuto(options: seq<SelectOption>, n: nat) {
    && |options| == n + 1
    && options[0] == AutoOption
    && forall k :: 1 <= k <= n ==> options[k].value == NatToString(k - 1)
  }

  /** In a selector listing auto and then indices, "auto" is always an
      option and the string of an integer is an option exactly when the
      integer is one of the indices. */
  lemma IndexedValues(options: seq<SelectOption>, n: nat, i: int)
    requires IndexedAfterAuto(options, n)
    ensures HasValue(options, "auto")
    ensures HasValue(options, IntToString(i)) <==> 0 <= i < n
  {
    assert options[0].value == "auto";
    if HasValue(options, IntToString(i)) {
      var j :| 0 <= j < |options| && options[j].value == IntToString(i);
      assert j != 0;
      IntToStringIsIndex(i, j - 1);
    }
    if 0 <= i < n {
      assert options[i + 1].value == NatToString(i);
    }
  }

  /** A selector listing auto and then index-valued options, with the
      value `updateHlsOptions` and `updateDashOptions` assign: "auto" in auto
      mode, otherwise the string of the engine's index, which selects that
      index's option when there is one and nothing ("") when there is not. */
  function IndexSelector(opts: seq<SelectOption>, auto: bool, current: int): (sel: Selector)
    requires forall k :: 0 <= k < |opts| ==> opts[k].value == NatToString(k)
    ensures sel.options == [AutoOption] + opts
    ensures sel.disabled <==> |opts| == 0
    ensures sel.value == "auto" <==> auto
    ensures !auto && 0 <= current < |opts| ==> sel.value == NatToString(current)
    ensures !auto && !(0 <= current < |opts|) ==> sel.value == ""
  {
    var listed := SetSelectOptions(opts);
    assert forall k :: 1 <= k <= |opts| ==> listed.options[k] == opts[k - 1];
    assert IndexedAfterAuto(listed.options, |opts|);
    IndexedValues(listed.options, |opts|, current);
    if !auto && 0 <= current < |opts| then
      NatToStringIsNotAuto(current);
      SelectValue(listed, IntToString(current))
    else
      SelectValue(listed, if auto then "auto" else IntToString(current))
  }

  /** The quality half of `updateHlsOptions` and `updateDashOptions`. */
  function LevelSelector(levels: seq<Level>, fallback: string, auto: bool, current: int): (sel: Selector)
    ensures sel.options == [AutoOption] + QualityOptions(levels, fallback)
    ensures sel.disabled <==> |levels| == 0
    ensures sel.value == "auto" <==> auto
    ensures !auto && 0 <= current < |levels| ==> sel.value == NatToString(current)
    ensures !auto && !(0 <= current < |levels|) ==> sel.value == ""
  {
    IndexSelector(QualityOptions(levels, fallback), auto, current)
  }

  /** The audio half of `updateHlsOptions`: the current track's index when
      there are tracks, "auto" when there are none. */
  function HlsAudioSelector(tracks: seq<Track>, current: int): (sel: Selector)
    ensures sel.options == [AutoOption] + TrackOptions(tracks)
    ensures sel.disabled <==> |tracks| == 0
    ensures sel.value == "auto" <==> |tracks| == 0
    ensures 0 <= current < |tracks| ==> sel.value == NatToString(current)
    ensures |tracks| > 0 && !(0 <= current < |tracks|) ==> sel.value == ""
  {
    IndexSelector(TrackOptions(tracks), |tracks| == 0, current)
  }

  /** `updateHlsOptions`: the quality selector lists auto and one option per
      level; its value is "auto" exactly in auto-level mode and otherwise the
      current level's index (or nothing when that index has no option). The
      audio selector lists auto and one option per track; its value is the
      current track's index when there are tracks (or nothing when that
      index has no option) and "auto" exactly when there are none. */
  function UpdateHlsOptions(snap: HlsSnapshot): (r: Selectors)
    ensures r.quality.options == [AutoOption] + QualityOptions(snap.levels, "Level")
    ensures r.quality.disabled <==> |snap.levels| == 0
    ensures r.quality.value == "auto" <==> snap.autoLevelEnabled
    ensures !snap.autoLevelEnabled && 0 <= snap.currentLevel < |snap.levels| ==>
      r.quality.value == NatToString(snap.currentLevel)
    ensures !snap.autoLevelEnabled && !(0 <= snap.currentLevel < |snap.levels|) ==>
      r.quality.value == ""
    ensures r.audio.options == [AutoOption] + TrackOptions(snap.audioTracks)
    ensures r.audio.disabled <==> |snap.audioTracks| == 0
    ensures r.audio.value == "auto" <==> |snap.audioTracks| == 0
    ensures 0 <= snap.audioTrack < |snap.audioTracks| ==>
      r.audio.value == NatToString(snap.audioTrack)
    ensures |snap.audioTracks| > 0 && !(0 <= snap.audioTrack < |snap.audioTracks|) ==>
      r.audio.value == ""
  {
    var quality := LevelSelector(snap.levels, "Level", snap.autoLevelEnabled, snap.currentLevel);
    var audio := HlsAudioSelector(snap.audioTracks, snap.audioTrack);
    Selectors(quality, audio)
  }

  /** `tracks.findIndex(track => track === current)`: the first position
      holding `current`, or -1. */
  function FindIndex(tracks: seq<Track>, current: Option<Track>): (r: int)
    ensures -1 <= r < |tracks|
    ensures r == -1 <==> current.None? || current.value !in tracks
    ensures r >= 0 ==> tracks[r] == current.value
    ensures r >= 0 ==> forall k :: 0 <= k < r ==> tracks[k] != current.value
    decreases |tracks|
  {
    if current.None? || tracks == [] then -1
    else if tracks[0] == current.value then 0
    else
      var rest := FindIndex(tracks[1..], current);
      assert tracks == [tracks[0]] + tracks[1..];
      if rest == -1 then -1 else rest + 1
  }

  /** The audio half of `updateDashOptions`: the selected option is the
      position of the current track object, or auto when it is not listed. */
  function DashAudioSelector(tracks: seq<Track>, current: Option<Track>): (sel: Selector)
    ensures sel.options == [AutoOption] + TrackOptions(tracks)
    ensures sel.disabled <==> |tracks| == 0
    ensures sel.value == "auto" <==> current.None? || current.value !in tracks
    ensures current.Some? && current.value in tracks ==>
      var k := FindIndex(tracks, current);
      0 <= k && sel.value == NatToString(k) && tracks[k] == current.value
  {
    var currentIndex := FindIndex(tracks, current);
    IndexSelector(TrackOptions(tracks), currentIndex < 0, currentIndex)
  }

  /** `updateDashOptions`: as for HLS, with the bitrate infos as levels
      (fallback label "Quality"), the auto-switch flag as auto mode, and the
      audio value naming the position of the current track, or "auto" when
      the current track is not among the tracks. */
  function UpdateDashOptions(snap: DashSnapshot): (r: Selectors)
    ensures r.quality.options == [AutoOption] + QualityOptions(snap.bitrates, "Quality")
    ensures r.quality.disabled <==> |snap.bitrates| == 0
    ensures r.quality.value == "auto" <==> snap.autoSwitch
    ensures !snap.autoSwitch && 0 <= snap.quality < |snap.bitrates| ==>
      r.quality.value == NatToString(snap.quality)
    ensures !snap.autoSwitch && !(0 <= snap.quality < |snap.bitrates|) ==>
      r.quality.value == ""
    ensures r.audio.options == [AutoOption] + TrackOptions(snap.tracks)
    ensures r.audio.disabled <==> |snap.tracks| == 0
    ensures r.audio.value == "auto" <==>
      snap.currentTrack.None? || snap.currentTrack.value !in snap.tracks
    ensures snap.currentTrack.Some? && snap.currentTrack.value in snap.tracks ==>
      var k := FindIndex(snap.tracks, snap.currentTrack);
      0 <= k && r.audio.value == NatToString(k) && snap.tracks[k] == snap.currentTrack.value
  {
    var quality := LevelSelector(snap.bitrates, "Quality", snap.autoSwitch, snap.quality);
    var audio := DashAudioSelector(snap.tracks, snap.currentTrack);
    Selectors(quality, audio)
  }

  /** The selectors after `resetStats`: only the auto option, selected, and
      both selectors disabled. */
  function EmptySelectors(): (r: Selectors)
    ensures r.quality.options == [AutoOption] && r.audio.options == [AutoOption]
    ensures r.quality.value == "auto" && r.audio.value == "auto"
    ensures r.quality.disabled && r.audio.disabled
  {
    Selectors(SetSelectOptions([]), SetSelectOptions([]))
  }
}

=== FILE: resolver.dfy ===
/** Format and DRM resolution: which engine family a play request goes to,
    and the optional DRM configuration handed to that engine in its own
    configuration shape. */
module Resolver {
  import opened Wrappers
  import opened Text

  /** The stream types of the type selector; `Auto` means "not determined". */
  datatype StreamType = Hls | Dash | Auto

  /** `detectType`: the lower-cased source name's suffix decides. */
  function DetectType(name: string): (t: StreamType)
    ensures t == Hls <==> EndsWith(ToLower(name), ".m3u8")
    ensures t == Dash <==> !EndsWith(ToLower(name), ".m3u8") && EndsWith(ToLower(name), ".mpd")
  {
    var lower := ToLower(name);
    if EndsWith(lower, ".m3u8") then Hls
    else if EndsWith(lower, ".mpd") then Dash
    else Auto
  }

  /** `name` ends with the lower-case `suffix`, each letter of the suffix
      matching in either case and every other character matching exactly. */
  predicate EndsWithAnyCase(name: string, suffix: string) {
    && |suffix| <= |name|
    && forall i :: 0 <= i < |suffix| ==>
         var c := name[|name| - |suffix| + i];
         c == suffix[i] || ('a' <= suffix[i] <= 'z' && c as int == suffix[i] as int - 32)
  }

  lemma LowerSuffix(name: string, suffix: string)
    requires forall i :: 0 <= i < |suffix| ==> !IsUpper(suffix[i])
    ensures EndsWith(ToLower(name), suffix) <==> EndsWithAnyCase(name, suffix)
  {
    var lower := ToLower(name);
    if |suffix| <= |name| {
      var off := |name| - |suffix|;
      if EndsWith(lower, suffix) {
        forall i | 0 <= i < |suffix|
          ensures var c := name[off + i];
            c == suffix[i] || ('a' <= suffix[i] <= 'z' && c as int == suffix[i] as int - 32)
        {
          assert lower[off..][i] == suffix[i];
        }
      }
      if EndsWithAnyCase(name, suffix) {
        forall i | 0 <= i < |suffix| ensures lower[off..][i] == suffix[i] {
          assert lower[off + i] == LowerChar(name[off + i]);
        }
      }
    }
  }

  /** Detection is case-insensitive: a name is HLS exactly when it ends in
      `.m3u8` in any mix of cases, otherwise DASH exactly when it ends in
      `.mpd` in any mix of cases, and undetermined otherwise. */
  lemma DetectTypeBySuffix(name: string)
    ensures DetectType(name) == Hls <==> EndsWithAnyCase(name, ".m3u8")
    ensures DetectType(name) == Dash <==>
      !EndsWithAnyCase(name, ".m3u8") && EndsWithAnyCase(name, ".mpd")
    ensures DetectType(name) == Auto <==>
      !EndsWithAnyCase(name, ".m3u8") && !EndsWithAnyCase(name, ".mpd")
  {
    LowerSuffix(name, ".m3u8");
    LowerSuffix(name, ".mpd");
  }

  /** The type selector's value read as a stream type; any value other than
      "hls" and "dash" leaves the type undetermined. */
  function TypeFromSelector(value: string): (t: StreamType)
    ensures t == Hls <==> value == "hls"
    ensures t == Dash <==> value == "dash"
  {
    if value == "hls" then Hls else if value == "dash" then Dash else Auto
  }

  /** The type `handlePlay` routes on: the explicit choice, unless it is
      "auto", in which case the detected type. */
  function ResolveType(requested: string, name: string): (t: StreamType)
    ensures requested != "auto" ==> t == TypeFromSelector(requested)
    ensures requested == "auto" ==> t == DetectType(name)
  {
    if requested == "auto" then DetectType(name) else TypeFromSelector(requested)
  }

  /** An explicit "hls" or "dash" wins over the source name; with "auto" a
      name with neither suffix stays undetermined. */
  lemma ExplicitChoiceOverrides(requested: string, name: string)
    ensures requested == "hls" ==> ResolveType(requested, name) == Hls
    ensures requested == "dash" ==> ResolveType(requested, name) == Dash
    ensures requested == "auto" ==>
      (ResolveType(requested, name) == Auto <==>
       !EndsWithAnyCase(name, ".m3u8") && !EndsWithAnyCase(name, ".mpd"))
  {
    DetectTypeBySuffix(name);
  }

  // ---------------------------------------------------------------------
  // DRM

  datatype DrmConfig = DrmConfig(licenseUrl: string, keySystem: string)

  /** `createDrmConfig`: a configuration exists exactly when both the
      license URL and the key system are non-blank, and it holds both
      values trimmed. */
  function CreateDrmConfig(licenseUrlInput: string, keySystemInput: string): (r: Option<DrmConfig>)
    ensures r.Some? <==> !AllWhitespace(licenseUrlInput) && !AllWhitespace(keySystemInput)
    ensures r.Some? ==> r.value.licenseUrl == Trim(licenseUrlInput)
    ensures r.Some? ==> r.value.keySystem == Trim(keySystemInput)
    ensures r.Some? ==> r.value.licenseUrl != [] && r.value.keySystem != []
  {
    var licenseUrl := Trim(licenseUrlInput);
    var keySystem := Trim(keySystemInput);
    if licenseUrl == [] || keySystem == [] then None
    else Some(DrmConfig(licenseUrl, keySystem))
  }

  /** The configuration object `new Hls(config)` receives.
      `drmSystems` maps each key system to its license URL. A false
      `lowLatencyMode` stands for the key being absent: it is set (together
      with the live sync playback rate) only when the low-latency box is
      checked, and otherwise HLS.js applies its own default. */
  datatype HlsConfig = HlsConfig(
    emeEnabled: bool,
    drmSystems: Option<map<string, string>>,
    lowLatencyMode: bool)

  /** The settings applied to a freshly created dash.js player before
      `initialize`: the low-latency streaming flag (false when
      `updateSettings` is not called, leaving dash.js its default), and the
      protection data mapping each key system to its license server URL
      (absent when `setProtectionData` is not called). */
  datatype DashSetup = DashSetup(
    lowLatencyEnabled: bool,
    protectionData: Option<map<string, string>>)

  /** The HLS configuration built in `loadHls`. */
  function HlsConfigFor(drm: Option<DrmConfig>, lowLatency: bool): (c: HlsConfig)
    ensures c.emeEnabled <==> drm.Some?
    ensures c.drmSystems.Some? <==> drm.Some?
    ensures drm.Some? ==>
      && c.drmSystems.value.Keys == {drm.value.keySystem}
      && c.drmSystems.value[drm.value.keySystem] == drm.value.licenseUrl
    ensures c.lowLatencyMode == lowLatency
  {
    match drm
    case None => HlsConfig(false, None, lowLatency)
    case Some(d) => HlsConfig(true, Some(map[d.keySystem := d.licenseUrl]), lowLatency)
  }

  /** The DASH settings applied in `loadDash`. */
  function DashSetupFor(drm: Option<DrmConfig>, lowLatency: bool): (c: DashSetup)
    ensures c.protectionData.Some? <==> drm.Some?
    ensures drm.Some? ==>
      && c.protectionData.value.Keys == {drm.value.keySystem}
      && c.protectionData.value[drm.value.keySystem] == drm.value.licenseUrl
    ensures c.lowLatencyEnabled == lowLatency
  {
    match drm
    case None => DashSetup(lowLatency, None)
    case Some(d) => DashSetup(lowLatency, Some(map[d.keySystem := d.licenseUrl]))
  }

  /** Whichever engine is chosen, the DRM fields reach it unchanged apart
      from trimming: both engines key the same license URL by the same key
      system, and do so exactly when both fields are non-blank. */
  lemma DrmReachesEitherEngine(licenseUrlInput: string, keySystemInput: string, lowLatency: bool)
    ensures var drm := CreateDrmConfig(licenseUrlInput, keySystemInput);
      && HlsConfigFor(drm, lowLatency).drmSystems == DashSetupFor(drm, lowLatency).protectionData
      && (HlsConfigFor(drm, lowLatency).drmSystems.Some? <==>
            !AllWhitespace(licenseUrlInput) && !AllWhitespace(keySystemInput))
      && (HlsConfigFor(drm, lowLatency).drmSystems.Some? ==>
            HlsConfigFor(drm, lowLatency).drmSystems.value ==
              map[Trim(keySystemInput) := Trim(licenseUrlInput)])
  {
  }
}

=== FILE: session.dfy ===
/** The page controller: one record holding everything `app.js` keeps in
    its top-level variables and page elements that matter, and one pure
    transition per handler. Each transition returns the next record and the
    calls it makes on the host and the engines, in order; object URLs and
    interval ids are tokens drawn from counters in the record, as the host
    would allocate them. */
module Session {
  import opened Wrappers
  import opened Text
  import opened Resolver
  import opened History
  import opened Options
  import opened Stats
  import opened Dispatch

  /** A token returned by `URL.createObjectURL`. */
  type Handle = nat

  /** What an engine or the video element is told to play: the typed URL,
      or an object URL made for a local file. */
  datatype Source = Url(url: string) | ObjectUrl(handle: Handle)

  /** An HLS.js player created with `config`, attached to the video element
      and loading `source`. */
  datatype HlsPlayer = HlsPlayer(config: HlsConfig, source: Source)

  /** A dash.js player set up with `setup` and initialised on `source` with
      autoplay on. */
  datatype DashPlayer = DashPlayer(setup: DashSetup, source: Source)

  /** The attributes of the video element the controller writes. */
  datatype Video = Video(src: Option<Source>, autoplay: bool, muted: bool, loop: bool)

  /** A live `setInterval` registration running `updateStats`. */
  datatype Timer = Timer(id: nat, interval: int)

  datatype Session = Session(
    hls: Option<HlsPlayer>,
    dash: Option<DashPlayer>,
    objectUrl: Option<Handle>,
    video: Video,
    statsTimer: Option<Timer>,
    bufferHistory: seq<real>,
    bitrateHistory: seq<real>,
    selectors: Selectors,
    shown: Option<Metrics>,     // None: every figure reads "-" and the live badge is hidden
    nextHandle: Handle,
    nextTimer: nat)

  /** The calls a transition makes outside the record, in order. */
  datatype Effect =
    | DestroyHls
    | ResetDash
    | CreateObjectUrl(created: Handle)
    | RevokeObjectUrl(revoked: Handle)
    | UnloadVideo
    | SetInterval(timerId: nat, ms: int)
    | ClearInterval(clearedId: nat)
    | AttachHls(hlsConfig: HlsConfig, hlsSource: Source)
    | PlayNative(nativeSource: Source)
    | InitializeDash(dashSetup: DashSetup, dashSource: Source)
    | EngineCall(command: Command)
    | Status(message: string)

  datatype Step = Step(s: Session, effects: seq<Effect>)

  /** Effects that allocate or release a host token. */
  predicate TokenEffect(e: Effect) {
    e.CreateObjectUrl? || e.RevokeObjectUrl? || e.SetInterval? || e.ClearInterval?
  }

  /** Every object URL revoked in `effs` is the handle `held`. */
  predicate RevokesOnly(effs: seq<Effect>, held: Option<Handle>) {
    forall i :: 0 <= i < |effs| && effs[i].RevokeObjectUrl? ==> held == Some(effs[i].revoked)
  }

  /** The session invariant: at most one engine slot occupied, histories
      within capacity, and every token already handed out lies below its
      counter, so the next one is fresh. */
  predicate Valid(s: Session) {
    && !(s.hls.Some? && s.dash.Some?)
    && |s.bufferHistory| <= MaxHistory
    && |s.bitrateHistory| <= MaxHistory
    && (s.objectUrl.Some? ==> s.objectUrl.value < s.nextHandle)
    && (s.statsTimer.Some? ==> s.statsTimer.value.id < s.nextTimer)
  }

  /** Which engine the selectors and stats talk to. */
  function ActiveEngine(s: Session): (kind: EngineKind)
    ensures kind == HlsEngine <==> s.hls.Some?
    ensures kind == DashEngine <==> s.hls.None? && s.dash.Some?
  {
    if s.hls.Some? then HlsEngine else if s.dash.Some? then DashEngine else NoEngine
  }

  // ---------------------------------------------------------------------
  // resetStats and cleanupPlayers

  /** `resetStats`: every figure back to "-", the live badge hidden, both
      selectors reduced to their auto option and disabled, and both
      histories emptied (the redrawn charts then have no points). */
  function ResetStats(s: Session): (r: Session)
    ensures r.bufferHistory == [] && r.bitrateHistory == [] && r.shown.None?
    ensures r.selectors.quality.options == [AutoOption] && r.selectors.quality.disabled
    ensures r.selectors.audio.options == [AutoOption] && r.selectors.audio.disabled
    ensures r.selectors.quality.value == "auto" && r.selectors.audio.value == "auto"
    ensures r.hls == s.hls && r.dash == s.dash && r.objectUrl == s.objectUrl
    ensures r.video == s.video && r.statsTimer == s.statsTimer
    ensures r.nextHandle == s.nextHandle && r.nextTimer == s.nextTimer
  {
    s.(bufferHistory := [], bitrateHistory := [], selectors := EmptySelectors(), shown := None)
  }

  /** The releases `cleanupPlayers` makes before clearing the timer:
      destroy the HLS player, reset the DASH player and revoke the object
      URL, each only when present, then unload the video element. */
  function ReleaseEffects(s: Session): (effs: seq<Effect>)
    ensures DestroyHls in effs <==> s.hls.Some?
    ensures ResetDash in effs <==> s.dash.Some?
    ensures forall h: Handle :: RevokeObjectUrl(h) in effs <==> s.objectUrl == Some(h)
    ensures UnloadVideo in effs
    ensures forall i :: 0 <= i < |effs| ==> !effs[i].SetInterval? && !effs[i].ClearInterval?
  {
    (if s.hls.Some? then [DestroyHls] else [])
    + (if s.dash.Some? then [ResetDash] else [])
    + (if s.objectUrl.Some? then [RevokeObjectUrl(s.objectUrl.value)] else [])
    + [UnloadVideo]
  }

  /** `clearInterval(statsTimer)` when a timer is registered. */
  function ClearTimerEffects(s: Session): (effs: seq<Effect>)
    ensures s.statsTimer.None? <==> effs == []
    ensures s.statsTimer.Some? ==> effs == [ClearInterval(s.statsTimer.value.id)]
  {
    if s.statsTimer.Some? then [ClearInterval(s.statsTimer.value.id)] else []
  }

  /** The calls `cleanupPlayers` makes: the releases, then the timer. */
  function CleanupEffects(s: Session): (effs: seq<Effect>)
    ensures DestroyHls in effs <==> s.hls.Some?
    ensures ResetDash in effs <==> s.dash.Some?
    ensures forall h: Handle :: RevokeObjectUrl(h) in effs <==> s.objectUrl == Some(h)
    ensures forall id: nat :: ClearInterval(id) in effs <==> s.statsTimer.Some? && s.statsTimer.value.id == id
    ensures UnloadVideo in effs
    ensures forall e :: e in effs ==>
      e.DestroyHls? || e.ResetDash? || e.RevokeObjectUrl? || e.UnloadVideo? || e.ClearInterval?
    ensures RevokesOnly(effs, s.objectUrl)
  {
    ReleaseEffects(s) + ClearTimerEffects(s)
  }

  /** `cleanupPlayers`: afterwards no engine, no object URL, no source on
      the video element, no timer, and the stats reset. The playback flags
      of the video element and the token counters are kept. */
  function Cleanup(s: Session): (st: Step)
    ensures st.s.hls.None? && st.s.dash.None? && st.s.objectUrl.None?
    ensures st.s.video.src.None? && st.s.statsTimer.None?
    ensures st.s.bufferHistory == [] && st.s.bitrateHistory == [] && st.s.shown.None?
    ensures st.s.selectors == EmptySelectors()
    ensures st.s.video.autoplay == s.video.autoplay && st.s.video.muted == s.video.muted
    ensures st.s.video.loop == s.video.loop
    ensures st.s.nextHandle == s.nextHandle && st.s.nextTimer == s.nextTimer
    ensures st.effects == CleanupEffects(s)
  {
    var cleared := s.(hls := None, dash := None, objectUrl := None,
                      video := s.video.(src := None), statsTimer := None);
    Step(ResetStats(cleared), CleanupEffects(s))
  }

  /** Cleaning up twice leaves the same session as cleaning up once, and
      the second clean-up releases nothing: it only unloads the video
      element again. */
  lemma CleanupIdempotent(s: Session)
    ensures Cleanup(Cleanup(s).s).s == Cleanup(s).s
    ensures Cleanup(Cleanup(s).s).effects == [UnloadVideo]
  {
  }

  /** Clean-up keeps the session invariant, whatever the session held. */
  lemma CleanupValid(s: Session)
    ensures Valid(Cleanup(s).s)
  {
  }

  /** `effs` starts with the calls `c` and makes no token call after them,
      and every object URL it revokes is `held`. */
  predicate ExtendsWithoutTokens(effs: seq<Effect>, c: seq<Effect>, held: Option<Handle>) {
    && |c| <= |effs| && effs[..|c|] == c
    && (forall i :: |c| <= i < |effs| ==> !TokenEffect(effs[i]))
    && RevokesOnly(effs, held)
  }

  /** Appending calls that neither allocate nor release a token keeps the
      prefix, and keeps every revocation to the held handle. */
  lemma ExtendWithoutTokens(c: seq<Effect>, tail: seq<Effect>, held: Option<Handle>)
    requires RevokesOnly(c, held)
    requires forall i :: 0 <= i < |tail| ==> !TokenEffect(tail[i])
    ensures ExtendsWithoutTokens(c + tail, c, held)
  {
    assert forall i :: |c| <= i < |c + tail| ==> (c + tail)[i] == tail[i - |c|];
  }

  // ---------------------------------------------------------------------
  // loadHls, loadDash

  /** What the page offers: `Hls.isSupported()`, native HLS playback in the
      video element, and `dashjs.supportsMediaSource()`. */
  datatype Environment = Environment(hlsSupported: bool, nativeHls: bool, dashSupported: bool)

  /** `loadHls`: clean up, then create an HLS.js player when supported,
      else hand the source to the video element when it plays HLS natively,
      else report that HLS is unsupported. */
  function LoadHls(s: Session, source: Source, drm: Option<DrmConfig>, lowLatency: bool, env: Environment): (st: Step)
    ensures st.s.dash.None? && st.s.objectUrl.None? && st.s.statsTimer.None?
    ensures st.s.bufferHistory == [] && st.s.bitrateHistory == []
    ensures st.s.nextHandle == s.nextHandle && st.s.nextTimer == s.nextTimer
    ensures st.s.hls.Some? <==> env.hlsSupported
    ensures env.hlsSupported ==> st.s.hls == Some(HlsPlayer(HlsConfigFor(drm, lowLatency), source))
    ensures st.s.video.src == (if !env.hlsSupported && env.nativeHls then Some(source) else None)
    ensures |st.effects| == |CleanupEffects(s)| + (if env.hlsSupported || env.nativeHls then 2 else 1)
    ensures ExtendsWithoutTokens(st.effects, CleanupEffects(s), s.objectUrl)
    ensures env.hlsSupported ==>
      st.effects[|CleanupEffects(s)|] == AttachHls(HlsConfigFor(drm, lowLatency), source)
    ensures !env.hlsSupported && env.nativeHls ==> st.effects[|CleanupEffects(s)|] == PlayNative(source)
    ensures st.s == Cleanup(s).s.(hls := st.s.hls, video := Cleanup(s).s.video.(src := st.s.video.src))
  {
    var c := Cleanup(s);
    if env.hlsSupported then
      var config := HlsConfigFor(drm, lowLatency);
      var tail := [AttachHls(config, source), Status("Loading HLS...")];
      ExtendWithoutTokens(c.effects, tail, s.objectUrl);
      Step(c.s.(hls := Some(HlsPlayer(config, source))), c.effects + tail)
    else if env.nativeHls then
      var tail := [PlayNative(source), Status("Using native HLS playback.")];
      ExtendWithoutTokens(c.effects, tail, s.objectUrl);
      Step(c.s.(video := c.s.video.(src := Some(source))), c.effects + tail)
    else
      var tail := [Status("HLS is not supported in this browser.")];
      ExtendWithoutTokens(c.effects, tail, s.objectUrl);
      Step(c.s, c.effects + tail)
  }

  /** `loadDash`: clean up, then report DASH as unsupported, or create and
      initialise a dash.js player on the source. */
  function LoadDash(s: Session, source: Source, drm: Option<DrmConfig>, lowLatency: bool, env: Environment): (st: Step)
    ensures st.s.hls.None? && st.s.objectUrl.None? && st.s.statsTimer.None? && st.s.video.src.None?
    ensures st.s.bufferHistory == [] && st.s.bitrateHistory == []
    ensures st.s.nextHandle == s.nextHandle && st.s.nextTimer == s.nextTimer
    ensures st.s.dash.Some? <==> env.dashSupported
    ensures env.dashSupported ==> st.s.dash == Some(DashPlayer(DashSetupFor(drm, lowLatency), source))
    ensures |st.effects| == |CleanupEffects(s)| + (if env.dashSupported then 2 else 1)
    ensures ExtendsWithoutTokens(st.effects, CleanupEffects(s), s.objectUrl)
    ensures env.dashSupported ==>
      st.effects[|CleanupEffects(s)|] == InitializeDash(DashSetupFor(drm, lowLatency), source)
    ensures st.s == Cleanup(s).s.(dash := st.s.dash)
  {
    var c := Cleanup(s);
    if !env.dashSupported then
      var tail := [Status("DASH is not supported in this browser.")];
      ExtendWithoutTokens(c.effects, tail, s.objectUrl);
      Step(c.s, c.effects + tail)
    else
      var setup := DashSetupFor(drm, lowLatency);
      var tail := [InitializeDash(setup, source), Status("Loading DASH...")];
      ExtendWithoutTokens(c.effects, tail, s.objectUrl);
      Step(c.s.(dash := Some(DashPlayer(setup, source))), c.effects + tail)
  }

  // ---------------------------------------------------------------------
  // handlePlay, handleStop

  /** A file picked in the file input. */
  datatype LocalFile = LocalFile(name: string)

  /** The form as the play button finds it. */
  datatype PlayForm = PlayForm(
    file: Option<LocalFile>,
    urlInput: string,
    streamType: string,
    licenseUrl: string,
    keySystem: string,
    autoplay: bool,
    muted: bool,
    loop: bool,
    lowLatency: bool)

  /** `resolveSource`: a picked file gets a new object URL, recorded in the
      session before anything else happens, and is named by its file name;
      otherwise the trimmed URL is both source and name. The source is
      empty only for a blank URL. */
  datatype Resolved = Resolved(st: Step, source: Source, name: string, empty: bool)

  function ResolveSource(s: Session, form: PlayForm): (r: Resolved)
    ensures form.file.Some? ==>
      && r.source == ObjectUrl(s.nextHandle) && r.name == form.file.value.name && !r.empty
      && r.st == Step(s.(objectUrl := Some(s.nextHandle), nextHandle := s.nextHandle + 1),
                      [CreateObjectUrl(s.nextHandle)])
    ensures form.file.None? ==>
      && r.source == Url(Trim(form.urlInput)) && r.name == Trim(form.urlInput)
      && r.st == Step(s, []) && (r.empty <==> AllWhitespace(form.urlInput))
  {
    match form.file
    case Some(f) =>
      var h := s.nextHandle;
      Resolved(Step(s.(objectUrl := Some(h), nextHandle := h + 1), [CreateObjectUrl(h)]),
               ObjectUrl(h), f.name, false)
    case None =>
      var url := Trim(form.urlInput);
      Resolved(Step(s, []), Url(url), url, url == [])
  }

  /** The playback flags `handlePlay` copies from the form. */
  function SetFlags(s: Session, form: PlayForm): (t: Session)
    ensures t.video.autoplay == form.autoplay && t.video.muted == form.muted && t.video.loop == form.loop
    ensures t.video.src == s.video.src
    ensures t == s.(video := t.video)
  {
    s.(video := s.video.(autoplay := form.autoplay, muted := form.muted, loop := form.loop))
  }

  /** `handlePlay` after the source is known and non-empty: set the
      playback flags, resolve the type and the DRM configuration, and route
      to the matching loader, whose clean-up comes first. An undetermined
      type reports it and cleans nothing up. */
  function Route(s: Session, source: Source, name: string, form: PlayForm, env: Environment): (st: Step)
    ensures ResolveType(form.streamType, name) == Auto ==>
      st == Step(SetFlags(s, form), [Status("Unable to detect stream type. Select HLS or DASH.")])
    ensures ResolveType(form.streamType, name) != Auto ==> st.s.objectUrl.None?
    ensures RevokesOnly(st.effects, s.objectUrl)
    ensures st.s.nextHandle == s.nextHandle
  {
    var flagged := SetFlags(s, form);
    var drm := CreateDrmConfig(form.licenseUrl, form.keySystem);
    match ResolveType(form.streamType, name)
    case Hls => LoadHls(flagged, source, drm, form.lowLatency, env)
    case Dash => LoadDash(flagged, source, drm, form.lowLatency, env)
    case Auto => Step(flagged, [Status("Unable to detect stream type. Select HLS or DASH.")])
  }

  /** A routed play runs the clean-up of the flagged session first and
      makes no token call after it; it leaves at most one engine, no timer,
      empty histories and the token counters as they were. */
  lemma RouteCleansUpFirst(s: Session, source: Source, name: string, form: PlayForm, env: Environment)
    requires ResolveType(form.streamType, name) != Auto
    ensures var st := Route(s, source, name, form, env);
      var c := CleanupEffects(SetFlags(s, form));
      && |c| + 1 <= |st.effects| && st.effects[..|c|] == c
      && (forall i :: |c| <= i < |st.effects| ==> !TokenEffect(st.effects[i]))
      && |st.effects| <= |c| + 2
  {
  }

  lemma RouteLeavesCleanSession(s: Session, source: Source, name: string, form: PlayForm, env: Environment)
    requires ResolveType(form.streamType, name) != Auto
    ensures var t := Route(s, source, name, form, env).s;
      && t.statsTimer.None? && !(t.hls.Some? && t.dash.Some?)
      && t.bufferHistory == [] && t.bitrateHistory == []
      && t.selectors == EmptySelectors() && t.shown.None?
      && t.nextTimer == s.nextTimer
  {
  }

  /** The engine is handed the source as the second-to-last call, right
      before the status message. */
  lemma RouteStartsEngine(s: Session, source: Source, name: string, form: PlayForm, env: Environment)
    ensures var st := Route(s, source, name, form, env);
      ResolveType(form.streamType, name) == Hls && env.hlsSupported ==>
        |st.effects| == |CleanupEffects(SetFlags(s, form))| + 2 &&
        st.effects[|st.effects| - 2] ==
          AttachHls(HlsConfigFor(CreateDrmConfig(form.licenseUrl, form.keySystem), form.lowLatency), source)
    ensures var st := Route(s, source, name, form, env);
      ResolveType(form.streamType, name) == Dash && env.dashSupported ==>
        |st.effects| == |CleanupEffects(SetFlags(s, form))| + 2 &&
        st.effects[|st.effects| - 2] ==
          InitializeDash(DashSetupFor(CreateDrmConfig(form.licenseUrl, form.keySystem), form.lowLatency), source)
  {
  }

  /** A load that reaches a player (HLS.js, native HLS playback or dash.js)
      is its clean-up and two more calls. */
  lemma RouteEngineAfterCleanup(s: Session, source: Source, name: string, form: PlayForm, env: Environment)
    requires var t := ResolveType(form.streamType, name);
      (t == Hls && (env.hlsSupported || env.nativeHls)) || (t == Dash && env.dashSupported)
    ensures var effs := Route(s, source, name, form, env).effects;
      var c := CleanupEffects(SetFlags(s, form));
      |effs| == |c| + 2 && effs[..|c|] == c
  {
    var flagged := SetFlags(s, form);
    var drm := CreateDrmConfig(form.licenseUrl, form.keySystem);
    if ResolveType(form.streamType, name) == Hls {
      assert Route(s, source, name, form, env) == LoadHls(flagged, source, drm, form.lowLatency, env);
    } else {
      assert Route(s, source, name, form, env) == LoadDash(flagged, source, drm, form.lowLatency, env);
    }
  }

  /** `handlePlay`. */
  function HandlePlay(s: Session, form: PlayForm, env: Environment): (st: Step)
    ensures form.file.None? && AllWhitespace(form.urlInput) ==>
      st == Step(s, [Status("Provide a URL or select a file.")])
    ensures form.file.Some? ==> |st.effects| > 0 && st.effects[0] == CreateObjectUrl(s.nextHandle)
    ensures RevokesOnly(st.effects, if form.file.Some? then Some(s.nextHandle) else s.objectUrl)
    ensures st.s.nextHandle == s.nextHandle + (if form.file.Some? then 1 else 0)
    ensures st.s.objectUrl.None? || st.s.objectUrl == (if form.file.Some? then Some(s.nextHandle) else s.objectUrl)
  {
    var r := ResolveSource(s, form);
    if r.empty then
      Step(r.st.s, r.st.effects + [Status("Provide a URL or select a file.")])
    else
      var routed := Route(r.st.s, r.source, r.name, form, env);
      Step(routed.s, r.st.effects + routed.effects)
  }

  /** `handleStop`. */
  function HandleStop(s: Session): (st: Step)
    ensures st.s == Cleanup(s).s
    ensures st.effects == CleanupEffects(s) + [Status("Stopped.")]
  {
    var c := Cleanup(s);
    Step(c.s, c.effects + [Status("Stopped.")])
  }

  // ---------------------------------------------------------------------
  // Stats loop and ticks

  /** `startStatsLoop`: clear the running timer, if any, then register a new
      one with the interval read from the selector. */
  function StartStatsLoop(s: Session, intervalValue: string): (st: Step)
    ensures st.s.statsTimer == Some(Timer(s.nextTimer, IntervalFor(intervalValue)))
    ensures st.s.nextTimer == s.nextTimer + 1
    ensures st.s == s.(statsTimer := st.s.statsTimer, nextTimer := st.s.nextTimer)
    ensures st.effects ==
      (if s.statsTimer.Some? then [ClearInterval(s.statsTimer.value.id)] else [])
      + [SetInterval(s.nextTimer, IntervalFor(intervalValue))]
  {
    var id := s.nextTimer;
    var ms := IntervalFor(intervalValue);
    Step(s.(statsTimer := Some(Timer(id, ms)), nextTimer := id + 1), ClearTimerEffects(s) + [SetInterval(id, ms)])
  }

  /** `updateStats`: compute the figures for the engines present, show
      them, and push the buffer length and the bitrate onto their
      histories. */
  function UpdateStats(s: Session, r: Readings): (t: Session)
    ensures t.shown == Some(MetricsOf(r, s.hls.Some?, s.dash.Some?))
    ensures |s.bufferHistory| <= MaxHistory ==>
      t.bufferHistory == LastN(s.bufferHistory + [t.shown.value.buffer], MaxHistory)
    ensures |s.bitrateHistory| <= MaxHistory ==>
      t.bitrateHistory == LastN(s.bitrateHistory + [t.shown.value.bitrate], MaxHistory)
    ensures t == s.(shown := t.shown, bufferHistory := t.bufferHistory, bitrateHistory := t.bitrateHistory)
  {
    var m := MetricsOf(r, s.hls.Some?, s.dash.Some?);
    s.(shown := Some(m),
       bufferHistory := Push(s.bufferHistory, m.buffer),
       bitrateHistory := Push(s.bitrateHistory, m.bitrate))
  }

  /** The `loadedmetadata` handler: one tick at once, then (re)start the
      stats loop, then rebuild the selectors from whichever engine exists. */
  function MetadataLoaded(s: Session, r: Readings, intervalValue: string,
                          hlsSnap: HlsSnapshot, dashSnap: DashSnapshot): (st: Step)
    ensures st.s.statsTimer == Some(Timer(s.nextTimer, IntervalFor(intervalValue)))
    ensures st.s.shown == Some(MetricsOf(r, s.hls.Some?, s.dash.Some?))
    ensures s.hls.Some? ==> st.s.selectors == UpdateHlsOptions(hlsSnap)
    ensures s.hls.None? && s.dash.Some? ==> st.s.selectors == UpdateDashOptions(dashSnap)
    ensures s.hls.None? && s.dash.None? ==> st.s.selectors == s.selectors
    ensures st.s.nextTimer == s.nextTimer + 1
    ensures st.effects == ClearTimerEffects(s) + [SetInterval(s.nextTimer, IntervalFor(intervalValue))]
    ensures st.s.hls == s.hls && st.s.dash == s.dash && st.s.objectUrl == s.objectUrl
    ensures st.s.video == s.video && st.s.nextHandle == s.nextHandle
    ensures |s.bufferHistory| <= MaxHistory ==>
      st.s.bufferHistory == LastN(s.bufferHistory + [st.s.shown.value.buffer], MaxHistory)
    ensures |s.bitrateHistory| <= MaxHistory ==>
      st.s.bitrateHistory == LastN(s.bitrateHistory + [st.s.shown.value.bitrate], MaxHistory)
  {
    var ticked := UpdateStats(s, r);
    var started := StartStatsLoop(ticked, intervalValue);
    var selectors :=
      if s.hls.Some? then UpdateHlsOptions(hlsSnap)
      else if s.dash.Some? then UpdateDashOptions(dashSnap)
      else s.selectors;
    Step(started.s.(selectors := selectors), started.effects)
  }

  /** An engine event that rebuilds the selectors (HLS: manifest parsed,
      audio tracks updated, level switched; DASH: stream initialised). The
      handler first checks that the engine slot is occupied. */
  function HlsOptionsEvent(s: Session, snap: HlsSnapshot): (t: Session)
    ensures s.hls.None? ==> t == s
    ensures s.hls.Some? ==> t == s.(selectors := UpdateHlsOptions(snap))
  {
    if s.hls.Some? then s.(selectors := UpdateHlsOptions(snap)) else s
  }

  function DashOptionsEvent(s: Session, snap: DashSnapshot): (t: Session)
    ensures s.dash.None? ==> t == s
    ensures s.dash.Some? ==> t == s.(selectors := UpdateDashOptions(snap))
  {
    if s.dash.Some? then s.(selectors := UpdateDashOptions(snap)) else s
  }

  /** The user's choice in the quality selector: the select element now
      shows the chosen value, and nothing else on the page changes. */
  function ChooseQuality(s: Session, value: string): (t: Session)
    ensures HasValue(s.selectors.quality.options, value) ==> t.selectors.quality.value == value
    ensures t.selectors.quality.options == s.selectors.quality.options
    ensures t.selectors.quality.disabled == s.selectors.quality.disabled
    ensures t.selectors.audio == s.selectors.audio
    ensures t == s.(selectors := t.selectors)
  {
    s.(selectors := s.selectors.(quality := SelectValue(s.selectors.quality, value)))
  }

  /** The user's choice in the audio selector, likewise. */
  function ChooseAudio(s: Session, value: string): (t: Session)
    ensures HasValue(s.selectors.audio.options, value) ==> t.selectors.audio.value == value
    ensures t.selectors.audio.options == s.selectors.audio.options
    ensures t.selectors.audio.disabled == s.selectors.audio.disabled
    ensures t.selectors.quality == s.selectors.quality
    ensures t == s.(selectors := t.selectors)
  {
    s.(selectors := s.selectors.(audio := SelectValue(s.selectors.audio, value)))
  }

  /** The selector `change` handlers, sent to the active engine. */
  function QualityChanged(s: Session, value: string): (effs: seq<Effect>)
    ensures |effs| == |OnQualityChange(ActiveEngine(s), value)|
    ensures forall i :: 0 <= i < |effs| ==> effs[i] == EngineCall(OnQualityChange(ActiveEngine(s), value)[i])
  {
    var cmds := OnQualityChange(ActiveEngine(s), value);
    seq(|cmds|, i requires 0 <= i < |cmds| => EngineCall(cmds[i]))
  }

  function AudioChanged(s: Session, dashTracks: seq<Track>, value: string): (effs: seq<Effect>)
    ensures |effs| == |OnAudioChange(ActiveEngine(s), dashTracks, value)|
    ensures forall i :: 0 <= i < |effs| ==>
      effs[i] == EngineCall(OnAudioChange(ActiveEngine(s), dashTracks, value)[i])
  {
    var cmds := OnAudioChange(ActiveEngine(s), dashTracks, value);
    seq(|cmds|, i requires 0 <= i < |cmds| => EngineCall(cmds[i]))
  }

  // ---------------------------------------------------------------------
  // Play routing

  /** The name the type is detected from. */
  function SourceName(form: PlayForm): string {
    if form.file.Some? then form.file.value.name else Trim(form.urlInput)
  }

  /** A blank URL with no file changes nothing; an undetermined type cleans
      nothing up: engines, timer, histories, selectors and figures stay as
      they were. Only the playback flags are written, and a picked file
      leaves its new object URL in the session. */
  lemma PlayWithoutRoute(s: Session, form: PlayForm, env: Environment)
    ensures form.file.None? && AllWhitespace(form.urlInput) ==> HandlePlay(s, form, env).s == s
    ensures ResolveType(form.streamType, SourceName(form)) == Auto ==>
      var t := HandlePlay(s, form, env).s;
      && t.hls == s.hls && t.dash == s.dash && t.statsTimer == s.statsTimer
      && t.bufferHistory == s.bufferHistory && t.bitrateHistory == s.bitrateHistory
      && t.selectors == s.selectors && t.shown == s.shown && t.video.src == s.video.src
      && t.objectUrl == (if form.file.Some? then Some(s.nextHandle) else s.objectUrl)
  {
  }

  /** A routed play always cleans up first: afterwards there is no object
      URL, no timer, and both histories are empty. HLS leaves only the HLS
      slot occupied when HLS.js is supported and no slot otherwise; DASH
      leaves only the DASH slot, and only when supported. */
  lemma PlayRouting(s: Session, form: PlayForm, env: Environment)
    requires form.file.Some? || !AllWhitespace(form.urlInput)
    ensures var t := HandlePlay(s, form, env).s;
      ResolveType(form.streamType, SourceName(form)) != Auto ==>
        t.objectUrl.None? && t.statsTimer.None? && t.bufferHistory == [] && t.bitrateHistory == []
        && t.selectors == EmptySelectors() && t.shown.None?
    ensures var t := HandlePlay(s, form, env).s;
      ResolveType(form.streamType, SourceName(form)) == Hls ==>
        t.dash.None? && (t.hls.Some? <==> env.hlsSupported)
        && (t.video.src.Some? <==> !env.hlsSupported && env.nativeHls)
    ensures var t := HandlePlay(s, form, env).s;
      ResolveType(form.streamType, SourceName(form)) == Dash ==>
        t.hls.None? && (t.dash.Some? <==> env.dashSupported) && t.video.src.None?
  {
    var r := ResolveSource(s, form);
    assert !r.empty && r.name == SourceName(form);
    assert HandlePlay(s, form, env).s == Route(r.st.s, r.source, r.name, form, env).s;
    if ResolveType(form.streamType, r.name) != Auto {
      RouteLeavesCleanSession(r.st.s, r.source, r.name, form, env);
    }
    RouteSlots(r.st.s, r.source, r.name, form, env);
  }

  /** Which engine slot a load fills, and whether the video element is
      given the source. */
  lemma RouteSlots(s: Session, source: Source, name: string, form: PlayForm, env: Environment)
    ensures var t := Route(s, source, name, form, env).s;
      ResolveType(form.streamType, name) == Hls ==>
        t.dash.None? && (t.hls.Some? <==> env.hlsSupported)
        && (t.video.src.Some? <==> !env.hlsSupported && env.nativeHls)
    ensures var t := Route(s, source, name, form, env).s;
      ResolveType(form.streamType, name) == Dash ==>
        t.hls.None? && (t.dash.Some? <==> env.dashSupported) && t.video.src.None?
  {
  }

  /** Playing a file: the object URL is created first, then the load runs
      on the session that holds it. */
  lemma PlayOfFile(s: Session, form: PlayForm, env: Environment)
    requires form.file.Some?
    ensures var r := ResolveSource(s, form);
      var routed := Route(r.st.s, r.source, r.name, form, env);
      && r.st.s.objectUrl == Some(s.nextHandle)
      && r.name == form.file.value.name && r.source == ObjectUrl(s.nextHandle)
      && HandlePlay(s, form, env).effects == [CreateObjectUrl(s.nextHandle)] + routed.effects
  {
  }

  /** As written, a local file's object URL is revoked by the clean-up that
      starts loading, and only then handed to the engine: the new handle is
      created, revoked, and then given to HLS.js or dash.js as the source. */
  lemma LocalFileRevokedBeforeLoad(s: Session, form: PlayForm, env: Environment)
    requires form.file.Some?
    requires var t := ResolveType(form.streamType, form.file.value.name);
      (t == Hls && env.hlsSupported) || (t == Dash && env.dashSupported)
    ensures var effs := HandlePlay(s, form, env).effects;
      var h := s.nextHandle;
      && |effs| >= 3
      && effs[0] == CreateObjectUrl(h)
      && RevokeObjectUrl(h) in effs[1..|effs| - 2]
      && (effs[|effs| - 2] == AttachHls(HlsConfigFor(CreateDrmConfig(form.licenseUrl, form.keySystem), form.lowLatency), ObjectUrl(h))
          || effs[|effs| - 2] == InitializeDash(DashSetupFor(CreateDrmConfig(form.licenseUrl, form.keySystem), form.lowLatency), ObjectUrl(h)))
  {
    LocalFileRevokedByCleanup(s, form, env);
    LocalFileHandedToEngine(s, form, env);
  }

  lemma LocalFileRevokedByCleanup(s: Session, form: PlayForm, env: Environment)
    requires form.file.Some?
    requires var t := ResolveType(form.streamType, form.file.value.name);
      (t == Hls && (env.hlsSupported || env.nativeHls)) || (t == Dash && env.dashSupported)
    ensures var effs := HandlePlay(s, form, env).effects;
      |effs| >= 3 && RevokeObjectUrl(s.nextHandle) in effs[1..|effs| - 2]
  {
    var h := s.nextHandle;
    var held := SetFlags(s.(objectUrl := Some(h), nextHandle := h + 1), form);
    FilePlayCleansUpInside(s, form, env);
    assert RevokeObjectUrl(h) in CleanupEffects(held);
  }

  /** Between the object URL's creation and the engine call lies exactly
      the clean-up of the session holding that URL. */
  lemma FilePlayCleansUpInside(s: Session, form: PlayForm, env: Environment)
    requires form.file.Some?
    requires var t := ResolveType(form.streamType, form.file.value.name);
      (t == Hls && (env.hlsSupported || env.nativeHls)) || (t == Dash && env.dashSupported)
    ensures var effs := HandlePlay(s, form, env).effects;
      var held := SetFlags(s.(objectUrl := Some(s.nextHandle), nextHandle := s.nextHandle + 1), form);
      |effs| >= 3 && effs[1..|effs| - 2] == CleanupEffects(held)
  {
    var h := s.nextHandle;
    var r := ResolveSource(s, form);
    var routed := Route(r.st.s, r.source, r.name, form, env);
    PlayOfFile(s, form, env);
    RouteEngineAfterCleanup(r.st.s, r.source, r.name, form, env);
    SliceAfterHead(HandlePlay(s, form, env).effects, CreateObjectUrl(h), routed.effects,
                   CleanupEffects(SetFlags(r.st.s, form)));
  }

  /** On the native path the same happens: the new handle is created,
      revoked by the clean-up, and then given to the video element. */
  lemma LocalFileRevokedBeforeNativePlay(s: Session, form: PlayForm, env: Environment)
    requires form.file.Some? && ResolveType(form.streamType, form.file.value.name) == Hls
    requires !env.hlsSupported && env.nativeHls
    ensures var effs := HandlePlay(s, form, env).effects;
      var h := s.nextHandle;
      && |effs| >= 3
      && effs[0] == CreateObjectUrl(h)
      && RevokeObjectUrl(h) in effs[1..|effs| - 2]
      && effs[|effs| - 2] == PlayNative(ObjectUrl(h))
  {
    var h := s.nextHandle;
    var r := ResolveSource(s, form);
    var flagged := SetFlags(r.st.s, form);
    var drm := CreateDrmConfig(form.licenseUrl, form.keySystem);
    var routed := Route(r.st.s, r.source, r.name, form, env);
    LocalFileRevokedByCleanup(s, form, env);
    PlayOfFile(s, form, env);
    assert routed == LoadHls(flagged, ObjectUrl(h), drm, form.lowLatency, env);
    var effs := HandlePlay(s, form, env).effects;
    assert effs[|effs| - 2] == routed.effects[|routed.effects| - 2];
  }

  lemma LocalFileHandedToEngine(s: Session, form: PlayForm, env: Environment)
    requires form.file.Some?
    requires var t := ResolveType(form.streamType, form.file.value.name);
      (t == Hls && env.hlsSupported) || (t == Dash && env.dashSupported)
    ensures var effs := HandlePlay(s, form, env).effects;
      var h := s.nextHandle;
      && |effs| >= 3
      && (effs[|effs| - 2] == AttachHls(HlsConfigFor(CreateDrmConfig(form.licenseUrl, form.keySystem), form.lowLatency), ObjectUrl(h))
          || effs[|effs| - 2] == InitializeDash(DashSetupFor(CreateDrmConfig(form.licenseUrl, form.keySystem), form.lowLatency), ObjectUrl(h)))
  {
    var h := s.nextHandle;
    var r := ResolveSource(s, form);
    var routed := Route(r.st.s, r.source, r.name, form, env);
    PlayOfFile(s, form, env);
    RouteStartsEngine(r.st.s, r.source, r.name, form, env);
    var effs := HandlePlay(s, form, env).effects;
    assert effs[|effs| - 2] == routed.effects[|routed.effects| - 2];
  }

  /** When `r` is its prefix `c` and two more elements, `[x] + r` is `c`
      between its head and its last two elements. */
  lemma SliceAfterHead<T>(xr: seq<T>, x: T, r: seq<T>, c: seq<T>)
    requires xr == [x] + r
    requires |r| == |c| + 2 && r[..|c|] == c
    ensures |xr| >= 3 && xr[1..|xr| - 2] == c
  {
  }
}

=== FILE: stats.dfy ===
/** The readings a stats tick takes from the page: buffer length, bitrate
    and the live heuristic, and the interval of the stats timer. The host
    values (buffered ranges, playback position, engine estimates) are
    inputs; the engines are present or absent as the session says. */
module Stats {
  import opened Wrappers
  import opened Text

  /** Reading `video.buffered`: either the read throws, or it yields the end
      times of the buffered ranges in order. */
  datatype BufferedRead = ReadThrows | Ranges(ends: seq<real>)

  /** `getBufferLength`: how far the last buffered range reaches past the
      playback position, never negative; 0 when there is no range or the
      read throws. */
  function BufferLength(read: BufferedRead, currentTime: real): (b: real)
    ensures b >= 0.0
    ensures read.ReadThrows? || read.ends == [] ==> b == 0.0
    ensures read.Ranges? && read.ends != [] ==>
      var ahead := read.ends[|read.ends| - 1] - currentTime;
      b >= ahead && (b == 0.0 || b == ahead)
  {
    match read
    case ReadThrows => 0.0
    case Ranges(ends) =>
      if ends == [] then 0.0
      else
        var ahead := ends[|ends| - 1] - currentTime;
        if ahead > 0.0 then ahead else 0.0
  }

  /** What the HLS player reports about bandwidth, in bits per second; a
      missing value reads as 0. */
  datatype HlsRates = HlsRates(bandwidthEstimate: real, bandwidth: real)

  /** What the DASH player offers: `getAverageThroughput` may not be a
      function; when it is, its value in kilobits per second. */
  datatype DashRates = DashRates(averageThroughput: Option<real>)

  /** `getBitrateKbps`: the HLS estimate (falling back to the nominal
      bandwidth) in kbps when an HLS player exists and one of them is
      non-zero; otherwise the DASH average throughput when a DASH player
      offers a non-zero one; otherwise 0. */
  function BitrateKbps(hls: Option<HlsRates>, dash: Option<DashRates>): (k: real)
    ensures hls.Some? && hls.value.bandwidthEstimate != 0.0 ==>
      k == hls.value.bandwidthEstimate / 1000.0
    ensures hls.Some? && hls.value.bandwidthEstimate == 0.0 && hls.value.bandwidth != 0.0 ==>
      k == hls.value.bandwidth / 1000.0
    ensures (hls.None? || (hls.value.bandwidthEstimate == 0.0 && hls.value.bandwidth == 0.0)) ==>
      k == (if dash.Some? && dash.value.averageThroughput.Some? then dash.value.averageThroughput.value else 0.0)
    ensures k != 0.0 <==>
      || (hls.Some? && (hls.value.bandwidthEstimate != 0.0 || hls.value.bandwidth != 0.0))
      || (dash.Some? && dash.value.averageThroughput.Some? && dash.value.averageThroughput.value != 0.0)
  {
    var fromHls :=
      if hls.None? then 0.0
      else if hls.value.bandwidthEstimate != 0.0 then hls.value.bandwidthEstimate
      else hls.value.bandwidth;
    if fromHls != 0.0 then fromHls / 1000.0
    else if dash.Some? && dash.value.averageThroughput.Some? && dash.value.averageThroughput.value != 0.0 then
      dash.value.averageThroughput.value
    else 0.0
  }

  /** The host values `detectLive` consults: whether the media duration is
      infinite, whether the HLS live sync position is a finite number, and
      the DASH `isDynamic()` answer (absent when it is not a function). */
  datatype LiveProbe = LiveProbe(durationInfinite: bool, liveSyncFinite: bool, isDynamic: Option<bool>)

  /** `detectLive`: an infinite duration means live; otherwise an HLS player
      with a finite live sync position; otherwise whatever a DASH player's
      `isDynamic()` answers. */
  function DetectLive(probe: LiveProbe, hlsPresent: bool, dashPresent: bool): (live: bool)
    ensures live <==>
      || probe.durationInfinite
      || (hlsPresent && probe.liveSyncFinite)
      || (dashPresent && probe.isDynamic == Some(true))
    ensures !hlsPresent && !dashPresent ==> (live <==> probe.durationInfinite)
  {
    if probe.durationInfinite then true
    else if hlsPresent && probe.liveSyncFinite then true
    else if dashPresent && probe.isDynamic.Some? then probe.isDynamic.value
    else false
  }

  /** Everything one tick reads from the host. */
  datatype Readings = Readings(
    buffered: BufferedRead,
    currentTime: real,
    hlsRates: HlsRates,
    dashRates: DashRates,
    probe: LiveProbe)

  /** The figures one tick shows: buffer seconds, kbps, the live badge, and
      the latency, shown only when live. */
  datatype Metrics = Metrics(buffer: real, bitrate: real, live: bool, latency: Option<real>)

  /** The figures of `updateStats` for the engines present. When live the
      latency shown is the buffer length. */
  function MetricsOf(r: Readings, hlsPresent: bool, dashPresent: bool): (m: Metrics)
    ensures m.buffer == BufferLength(r.buffered, r.currentTime) && m.buffer >= 0.0
    ensures m.bitrate == BitrateKbps(if hlsPresent then Some(r.hlsRates) else None,
                                     if dashPresent then Some(r.dashRates) else None)
    ensures m.live == DetectLive(r.probe, hlsPresent, dashPresent)
    ensures m.latency.Some? <==> m.live
    ensures m.live ==> m.latency == Some(m.buffer)
  {
    var buffer := BufferLength(r.buffered, r.currentTime);
    var bitrate := BitrateKbps(if hlsPresent then Some(r.hlsRates) else None,
                               if dashPresent then Some(r.dashRates) else None);
    var live := DetectLive(r.probe, hlsPresent, dashPresent);
    Metrics(buffer, bitrate, live, if live then Some(if buffer != 0.0 then buffer else 0.0) else None)
  }

  /** With no engine attached (native playback), the bitrate is 0 whatever
      the host reports, and only an infinite duration marks the stream live. */
  lemma NoEngineNoBitrate(r: Readings)
    ensures MetricsOf(r, false, false).bitrate == 0.0
    ensures MetricsOf(r, false, false).live <==> r.probe.durationInfinite
  {
  }

  // ---------------------------------------------------------------------
  // Stats interval

  /** The delay, in milliseconds, that `startStatsLoop` hands to
      `setInterval`: the selector value read by `parseInt`, or 1000 when that
      is NaN or 0. */
  function IntervalFor(value: string): (ms: int)
    ensures ms != 0
    ensures ParseInt(value).NaN? || ParseInt(value) == Int(0) ==> ms == 1000
    ensures ParseInt(value).Int? && ParseInt(value).i != 0 ==> ms == ParseInt(value).i
  {
    var n := ParseInt(value);
    if n.Int? && n.i != 0 then n.i else 1000
  }

  /** Every positive interval written in decimal is taken as is; "0" and a
      value with no digits fall back to one second. */
  lemma IntervalOfDecimal(ms: nat)
    ensures IntervalFor(NatToString(ms)) == if ms == 0 then 1000 else ms
    ensures IntervalFor("") == 1000
  {
    ParseIntOfDecimal(ms);
    ParseIntOfEmpty();
  }
}

=== FILE: text.dfy ===
/** The JavaScript string operations the controller relies on, stated over
    `string` (a sequence of Unicode scalar values): `toLowerCase`,
    `endsWith`, `trim`, `String(n)` for integers, `Number(s)` and
    `Number.parseInt(s, 10)`. */
module Text {
  import opened Wrappers

  // ---------------------------------------------------------------------
  // Case folding and suffixes

  predicate IsUpper(c: char) {
    'A' <= c <= 'Z'
  }

  /** Lower-cases one character; only the ASCII letters A-Z change. */
  function LowerChar(c: char): (r: char)
    ensures IsUpper(c) ==> r as int == c as int + 32
    ensures !IsUpper(c) ==> r == c
  {
    if IsUpper(c) then (c as int + 32) as char else c
  }

  /** `s.toLowerCase()` on ASCII letters; every other character is kept. */
  function ToLower(s: string): (r: string)
    ensures |r| == |s|
    ensures forall i :: 0 <= i < |s| ==> r[i] == LowerChar(s[i])
  {
    seq(|s|, i requires 0 <= i < |s| => LowerChar(s[i]))
  }

  predicate EndsWith(s: string, suffix: string) {
    |suffix| <= |s| && s[|s| - |suffix|..] == suffix
  }

  predicate StartsWith(s: string, prefix: string) {
    |prefix| <= |s| && s[..|prefix|] == prefix
  }

  // ---------------------------------------------------------------------
  // Whitespace and trim

  /** The characters `String.prototype.trim` removes: ECMAScript's
      WhiteSpace and LineTerminator code points. */
  predicate IsWhitespace(c: char) {
    if c as int < 0xA0 then c == ' ' || '\t' <= c <= '\r'
    else
      || c == '\U{00A0}' || c == '\U{1680}' || ('\U{2000}' <= c <= '\U{200A}')
      || c == '\U{2028}' || c == '\U{2029}' || c == '\U{202F}' || c == '\U{205F}'
      || c == '\U{3000}' || c == '\U{FEFF}'
  }

  predicate AllWhitespace(s: string) {
    forall i :: 0 <= i < |s| ==> IsWhitespace(s[i])
  }

  /** The first index at or after `i` that does not hold whitespace, or
      `|s|` when there is none. */
  function SkipWhitespace(s: string, i: nat): (r: nat)
    requires i <= |s|
    ensures i <= r <= |s|
    ensures forall k :: i <= k < r ==> IsWhitespace(s[k])
    ensures r < |s| ==> !IsWhitespace(s[r])
    decreases |s| - i
  {
    if i < |s| && IsWhitespace(s[i]) then SkipWhitespace(s, i + 1) else i
  }

  /** The end of `s[..j]` once its trailing whitespace, down to index `lo`,
      is dropped. */
  function BackOverWhitespace(s: string, lo: nat, j: nat): (r: nat)
    requires lo <= j <= |s|
    ensures lo <= r <= j
    ensures forall k :: r <= k < j ==> IsWhitespace(s[k])
    ensures r > lo ==> !IsWhitespace(s[r - 1])
    decreases j
  {
    if j > lo && IsWhitespace(s[j - 1]) then BackOverWhitespace(s, lo, j - 1) else j
  }

  /** `s.trimStart()`: what follows the leading whitespace. */
  function TrimStart(s: string): (r: string)
    ensures |r| <= |s| && r == s[|s| - |r|..]
    ensures forall k :: 0 <= k < |s| - |r| ==> IsWhitespace(s[k])
    ensures r != [] ==> !IsWhitespace(r[0])
  {
    s[SkipWhitespace(s, 0)..]
  }

  /** `s.trim()`: `s` splits as whitespace, then the result, then whitespace;
      the result is empty exactly when `s` is all whitespace, and otherwise
      neither starts nor ends with whitespace. */
  function Trim(s: string): (r: string)
    ensures var a := SkipWhitespace(s, 0);
      && a + |r| <= |s|
      && r == s[a..a + |r|]
      && (forall k :: 0 <= k < a ==> IsWhitespace(s[k]))
      && (forall k :: a + |r| <= k < |s| ==> IsWhitespace(s[k]))
    ensures r == [] <==> AllWhitespace(s)
    ensures r != [] ==> !IsWhitespace(r[0]) && !IsWhitespace(r[|r| - 1])
  {
    var a := SkipWhitespace(s, 0);
    s[a..BackOverWhitespace(s, a, |s|)]
  }

  /** Trimming is idempotent. */
  lemma TrimIdempotent(s: string)
    ensures Trim(Trim(s)) == Trim(s)
  {
    var r := Trim(s);
    if r != [] {
      assert SkipWhitespace(r, 0) == 0;
      assert BackOverWhitespace(r, 0, |r|) == |r|;
    }
  }

  // ---------------------------------------------------------------------
  // Decimal digits

  predicate IsDigit(c: char) {
    '0' <= c <= '9'
  }

  predicate AllDigits(s: string) {
    forall i :: 0 <= i < |s| ==> IsDigit(s[i])
  }

  function DigitChar(d: nat): (c: char)
    requires d < 10
    ensures IsDigit(c) && c as int - '0' as int == d
  {
    ('0' as int + d) as char
  }

  function DigitValue(c: char): nat
    requires IsDigit(c)
  {
    c as int - '0' as int
  }

  /** The value of a string of decimal digits (the empty string reads 0). */
  function DigitsValue(s: string): nat
    requires AllDigits(s)
    decreases |s|
  {
    if s == [] then 0 else DigitsValue(s[..|s| - 1]) * 10 + DigitValue(s[|s| - 1])
  }

  /** `String(n)` for a non-negative integer: a non-empty digit string with
      no leading zero that reads back as `n`. */
  function NatToString(n: nat): (r: string)
    ensures r != [] && AllDigits(r)
    ensures r[0] == '0' ==> r == "0"
    ensures DigitsValue(r) == n
  {
    if n < 10 then [DigitChar(n)]
    else
      var p := NatToString(n / 10);
      var r := p + [DigitChar(n % 10)];
      assert r[..|r| - 1] == p;
      r
  }

  /** Distinct indices print as distinct strings. */
  lemma NatToStringInjective(a: nat, b: nat)
    requires NatToString(a) == NatToString(b)
    ensures a == b
  {
    assert DigitsValue(NatToString(a)) == a;
  }

  /** `String(i)` for any integer: a minus sign before the magnitude exactly
      when `i` is negative. */
  function IntToString(i: int): (r: string)
    ensures r != []
    ensures r[0] == '-' <==> i < 0
    ensures i >= 0 ==> r == NatToString(i)
    ensures i < 0 ==> r[1..] == NatToString(-i)
  {
    if i < 0 then "-" + NatToString(-i) else NatToString(i)
  }

  /** The string printed for an integer is the index string of `k` exactly
      when the integer is `k`. */
  lemma IntToStringIsIndex(i: int, k: nat)
    ensures IntToString(i) == NatToString(k) <==> i == k
  {
    if IntToString(i) == NatToString(k) {
      assert i >= 0;
      NatToStringInjective(i, k);
    }
  }

  /** An index string is never the selector's reserved value "auto". */
  lemma NatToStringIsNotAuto(k: nat)
    ensures NatToString(k) != "auto"
  {
    var s := NatToString(k);
    assert IsDigit(s[0]);
  }

  // ---------------------------------------------------------------------
  // Number(s) and Number.parseInt(s, 10)

  /** An optionally signed decimal integer literal, or NaN. */
  function SignedDigits(t: string): Num {
    if t != [] && AllDigits(t) then Int(DigitsValue(t))
    else if |t| > 1 && t[0] == '-' && AllDigits(t[1..]) then Int(0 - DigitsValue(t[1..]))
    else if |t| > 1 && t[0] == '+' && AllDigits(t[1..]) then Int(DigitsValue(t[1..]))
    else NaN
  }

  /** `Number(s)`: surrounding whitespace is ignored, an empty or blank
      string is 0, a signed decimal integer is its value, anything else NaN. */
  function JsNumber(s: string): (r: Num)
    ensures AllWhitespace(s) ==> r == Int(0)
  {
    var t := Trim(s);
    if t == [] then Int(0) else SignedDigits(t)
  }

  /** `Number` reads back every index string, and "auto" is not a number. */
  lemma JsNumberOfIndex(k: nat)
    ensures JsNumber(NatToString(k)) == Int(k)
    ensures JsNumber("auto") == NaN
  {
    var s := NatToString(k);
    assert SkipWhitespace(s, 0) == 0 by {
      assert !IsWhitespace(s[0]);
    }
    assert BackOverWhitespace(s, 0, |s|) == |s| by {
      assert !IsWhitespace(s[|s| - 1]);
    }
    assert Trim(s) == s;
    var a := "auto";
    assert SkipWhitespace(a, 0) == 0 by {
      assert !IsWhitespace(a[0]);
    }
    assert BackOverWhitespace(a, 0, |a|) == |a| by {
      assert !IsWhitespace(a[|a| - 1]);
    }
    assert Trim(a) == a;
    assert !IsDigit(a[0]);
  }

  /** The longest prefix of `s` made of decimal digits. */
  function LeadingDigits(s: string): (r: string)
    ensures StartsWith(s, r) && AllDigits(r)
    ensures |r| < |s| ==> !IsDigit(s[|r|])
    decreases |s|
  {
    if s != [] && IsDigit(s[0]) then [s[0]] + LeadingDigits(s[1..]) else []
  }

  /** `Number.parseInt(s, 10)`: leading whitespace and one sign are skipped,
      then the longest run of digits is read; no digits gives NaN. */
  function ParseInt(s: string): (r: Num)
    ensures r == NaN <==> LeadingDigits(SkipSign(TrimStart(s))) == []
  {
    var t := TrimStart(s);
    var digits := LeadingDigits(SkipSign(t));
    if digits == [] then NaN
    else if t[0] == '-' then Int(0 - DigitsValue(digits))
    else Int(DigitsValue(digits))
  }

  function SkipSign(t: string): (r: string)
    ensures |r| <= |t|
  {
    if t != [] && (t[0] == '-' || t[0] == '+') then t[1..] else t
  }

  lemma {:induction false} LeadingDigitsOfDigits(s: string)
    requires AllDigits(s)
    ensures LeadingDigits(s) == s
    decreases |s|
  {
    if s != [] {
      LeadingDigitsOfDigits(s[1..]);
      assert [s[0]] + s[1..] == s;
    }
  }

  /** `parseInt` reads a plain digit string as its value. */
  lemma ParseIntOfDigits(s: string)
    requires s != [] && AllDigits(s)
    ensures ParseInt(s) == Int(DigitsValue(s))
  {
    assert IsDigit(s[0]);
    assert SkipWhitespace(s, 0) == 0;
    assert TrimStart(s) == s;
    assert SkipSign(s) == s;
    LeadingDigitsOfDigits(s);
  }

  /** `parseInt` of the empty string is NaN. */
  lemma ParseIntOfEmpty()
    ensures ParseInt("") == NaN
  {
    assert TrimStart("") == "";
    assert SkipSign("") == "";
  }

  /** `parseInt` reads back every decimal string printed by `String(n)`. */
  lemma ParseIntOfDecimal(n: nat)
    ensures ParseInt(NatToString(n)) == Int(n)
  {
    ParseIntOfDigits(NatToString(n));
  }
}

=== FILE: trace.dfy ===
/** Runs of page events from the state the page starts in. Over a run the
    calls made on the host are logged in order, which lets the model count
    the intervals still registered and the object URLs never revoked. */
module Trace {
  import opened Wrappers
  import opened Resolver
  import opened Options
  import opened Stats
  import opened Session

  /** The events the controller listens to. */
  datatype Event =
    | Play(form: PlayForm, env: Environment)
    | Stop
    | MetadataReady(readings: Readings, intervalValue: string, hlsSnap: HlsSnapshot, dashSnap: DashSnapshot)
    | IntervalChanged(newInterval: string)
    | TimerFired(tick: Readings)
    | HlsOptionsChanged(hlsNow: HlsSnapshot)
    | DashStreamInitialized(dashNow: DashSnapshot)
    | QualitySelected(quality: string)
    | AudioSelected(dashTracks: seq<Track>, audio: string)

  /** The page as loaded: no engine, no object URL, no timer, and the stats
      reset once by the closing `resetStats()`. */
  function Initial(autoplay: bool, muted: bool, loop: bool): (s: Session)
    ensures Valid(s)
    ensures Cleanup(s) == Step(s, [UnloadVideo])
  {
    Session(None, None, None, Video(None, autoplay, muted, loop), None, [], [],
            EmptySelectors(), None, 0, 0)
  }

  /** One event. A timer tick only happens while a timer is registered. The
      selector handlers read the select element's value after the choice,
      which is "" for a value none of its options carries. */
  function Apply(s: Session, e: Event): Step {
    match e
    case Play(form, env) => HandlePlay(s, form, env)
    case Stop => HandleStop(s)
    case MetadataReady(r, interval, hlsSnap, dashSnap) => MetadataLoaded(s, r, interval, hlsSnap, dashSnap)
    case IntervalChanged(value) => StartStatsLoop(s, value)
    case TimerFired(r) => if s.statsTimer.Some? then Step(UpdateStats(s, r), []) else Step(s, [])
    case HlsOptionsChanged(snap) => Step(HlsOptionsEvent(s, snap), [])
    case DashStreamInitialized(snap) => Step(DashOptionsEvent(s, snap), [])
    case QualitySelected(value) =>
      var t := ChooseQuality(s, value);
      Step(t, QualityChanged(s, t.selectors.quality.value))
    case AudioSelected(tracks, value) =>
      var t := ChooseAudio(s, value);
      Step(t, AudioChanged(s, tracks, t.selectors.audio.value))
  }

  /** The events in order: the final session and every call made. */
  function Run(s: Session, events: seq<Event>): Step
    decreases |events|
  {
    if events == [] then Step(s, [])
    else
      var first := Apply(s, events[0]);
      var rest := Run(first.s, events[1..]);
      Step(rest.s, first.effects + rest.effects)
  }

  // ---------------------------------------------------------------------
  // The session invariant

  lemma PlayValid(s: Session, form: PlayForm, env: Environment)
    requires Valid(s)
    ensures Valid(HandlePlay(s, form, env).s)
    ensures HandlePlay(s, form, env).s.nextHandle >= s.nextHandle
  {
    var r := ResolveSource(s, form);
    if !r.empty {
      var routed := Route(r.st.s, r.source, r.name, form, env);
      assert HandlePlay(s, form, env).s == routed.s;
      if ResolveType(form.streamType, r.name) == Auto {
        assert routed.s == SetFlags(r.st.s, form);
      } else {
        RouteLeavesCleanSession(r.st.s, r.source, r.name, form, env);
      }
    }
  }

  /** Every event keeps the invariant: never two engines, histories of at
      most sixty samples, and fresh tokens. */
  lemma ApplyValid(s: Session, e: Event)
    requires Valid(s)
    ensures Valid(Apply(s, e).s)
  {
    if e.Play? {
      PlayValid(s, e.form, e.env);
    } else {
      OtherEventValid(s, e);
    }
  }

  lemma OtherEventValid(s: Session, e: Event)
    requires Valid(s) && !e.Play?
    ensures Valid(Apply(s, e).s)
  {
    match e
    case Stop => assert Apply(s, e).s == Cleanup(s).s;
    case MetadataReady(r, interval, hlsSnap, dashSnap) =>
      assert Apply(s, e) == MetadataLoaded(s, r, interval, hlsSnap, dashSnap);
    case IntervalChanged(value) =>
      assert Apply(s, e) == StartStatsLoop(s, value);
    case TimerFired(r) =>
    case HlsOptionsChanged(snap) =>
    case DashStreamInitialized(snap) =>
    case QualitySelected(value) => assert Apply(s, e).s == ChooseQuality(s, value);
    case AudioSelected(tracks, value) => assert Apply(s, e).s == ChooseAudio(s, value);
  }

  lemma {:induction false} RunValid(s: Session, events: seq<Event>)
    requires Valid(s)
    ensures Valid(Run(s, events).s)
    decreases |events|
  {
    if events != [] {
      ApplyValid(s, events[0]);
      RunValid(Apply(s, events[0]).s, events[1..]);
    }
  }

  // ---------------------------------------------------------------------
  // Registered intervals

  /** The interval ids registered after the call `e`. */
  function TimerStep(live: set<nat>, e: Effect): set<nat> {
    match e
    case SetInterval(id, _) => live + {id}
    case ClearInterval(id) => live - {id}
    case _ => live
  }

  /** The interval ids still registered after the calls `effs`, starting
      from `live`. */
  function TimersAfter(live: set<nat>, effs: seq<Effect>): set<nat>
    decreases |effs|
  {
    if effs == [] then live else TimersAfter(TimerStep(live, effs[0]), effs[1..])
  }

  /** The id of the session's timer, if any. */
  function TimerIds(s: Session): (ids: set<nat>)
    ensures |ids| <= 1
    ensures ids == {} <==> s.statsTimer.None?
  {
    if s.statsTimer.Some? then {s.statsTimer.value.id} else {}
  }

  lemma {:induction false} TimersAfterConcat(live: set<nat>, a: seq<Effect>, b: seq<Effect>)
    ensures TimersAfter(live, a + b) == TimersAfter(TimersAfter(live, a), b)
    decreases |a|
  {
    if a == [] {
      assert a + b == b;
    } else {
      assert (a + b)[0] == a[0];
      assert (a + b)[1..] == a[1..] + b;
      TimersAfterConcat(TimerStep(live, a[0]), a[1..], b);
    }
  }

  lemma CleanupClearsTimer(live: set<nat>, s: Session)
    ensures TimersAfter(live, CleanupEffects(s)) == live - TimerIds(s)
  {
    TimersAfterConcat(live, ReleaseEffects(s), ClearTimerEffects(s));
    NoIntervalCallsKeep(live, ReleaseEffects(s));
    ClearTimer(live, s);
  }

  lemma ClearTimer(live: set<nat>, s: Session)
    ensures TimersAfter(live, ClearTimerEffects(s)) == live - TimerIds(s)
  {
    if s.statsTimer.Some? {
      var c := ClearTimerEffects(s);
      assert TimersAfter(live, c) == TimersAfter(live - TimerIds(s), c[1..]);
    }
  }

  lemma {:induction false} NoIntervalCallsKeep(live: set<nat>, effs: seq<Effect>)
    requires forall i :: 0 <= i < |effs| ==> !effs[i].SetInterval? && !effs[i].ClearInterval?
    ensures TimersAfter(live, effs) == live
    decreases |effs|
  {
    if effs != [] {
      NoIntervalCallsKeep(live, effs[1..]);
    }
  }

  /** A routed load clears the session's timer and registers none; an
      undetermined one leaves it alone. */
  lemma RouteTracksTimer(s: Session, source: Source, name: string, form: PlayForm, env: Environment)
    ensures var st := Route(s, source, name, form, env);
      TimersAfter(TimerIds(s), st.effects) == TimerIds(st.s)
  {
    if ResolveType(form.streamType, name) == Auto {
      var st := Route(s, source, name, form, env);
      assert st.effects == [Status("Unable to detect stream type. Select HLS or DASH.")];
      NoIntervalCallsKeep(TimerIds(s), st.effects);
      assert st.s.statsTimer == s.statsTimer;
    } else {
      RoutedLoadClearsTimer(s, source, name, form, env);
    }
  }

  /** A routed load clears the session's timer and registers none. */
  lemma RoutedLoadClearsTimer(s: Session, source: Source, name: string, form: PlayForm, env: Environment)
    requires ResolveType(form.streamType, name) != Auto
    ensures var st := Route(s, source, name, form, env);
      TimersAfter(TimerIds(s), st.effects) == {} && st.s.statsTimer.None?
  {
    var st := Route(s, source, name, form, env);
    RouteCleansUpFirst(s, source, name, form, env);
    RouteLeavesCleanSession(s, source, name, form, env);
    var c := CleanupEffects(SetFlags(s, form));
    var tail := st.effects[|c|..];
    SplitAt(st.effects, c);
    TimersAfterConcat(TimerIds(s), c, tail);
    CleanupClearsTimer(TimerIds(s), SetFlags(s, form));
    assert TimerIds(SetFlags(s, form)) == TimerIds(s);
    assert forall i :: 0 <= i < |tail| ==> !TokenEffect(tail[i]) by {
      forall i | 0 <= i < |tail| ensures !TokenEffect(tail[i]) {
        assert tail[i] == st.effects[|c| + i];
      }
    }
    NoIntervalCallsKeep({}, tail);
    assert TimersAfter(TimerIds(s), c) == {};
    assert TimersAfter(TimerIds(s), c + tail) == {};
    assert st.s.statsTimer.None?;
  }

  lemma SplitAt(effs: seq<Effect>, c: seq<Effect>)
    requires |c| <= |effs| && effs[..|c|] == c
    ensures effs == c + effs[|c|..]
  {
  }

  lemma PlayTracksTimer(s: Session, form: PlayForm, env: Environment)
    ensures var st := HandlePlay(s, form, env);
      TimersAfter(TimerIds(s), st.effects) == TimerIds(st.s)
  {
    var r := ResolveSource(s, form);
    var st := HandlePlay(s, form, env);
    assert TimersAfter(TimerIds(s), r.st.effects) == TimerIds(s) by {
      NoIntervalCallsKeep(TimerIds(s), r.st.effects);
    }
    if r.empty {
      TimersAfterConcat(TimerIds(s), r.st.effects, [Status("Provide a URL or select a file.")]);
      NoIntervalCallsKeep(TimerIds(s), [Status("Provide a URL or select a file.")]);
    } else {
      var routed := Route(r.st.s, r.source, r.name, form, env);
      TimersAfterConcat(TimerIds(s), r.st.effects, routed.effects);
      RouteTracksTimer(r.st.s, r.source, r.name, form, env);
    }
  }

  lemma StartTracksTimer(s: Session, value: string)
    ensures var st := StartStatsLoop(s, value);
      TimersAfter(TimerIds(s), st.effects) == TimerIds(st.s)
  {
    var st := StartStatsLoop(s, value);
    var set1 := [SetInterval(s.nextTimer, IntervalFor(value))];
    if s.statsTimer.Some? {
      var clear := [ClearInterval(s.statsTimer.value.id)];
      TimersAfterConcat(TimerIds(s), clear, set1);
      assert TimersAfter(TimerIds(s), clear) == TimersAfter({}, []);
      assert TimersAfter({}, set1) == TimersAfter({s.nextTimer}, []);
    } else {
      assert st.effects == set1;
      assert TimersAfter({}, set1) == TimersAfter({s.nextTimer}, []);
    }
  }

  /** The log of one event changes the registered intervals exactly as the
      session's timer changes. */
  lemma ApplyTracksTimer(s: Session, e: Event)
    ensures TimersAfter(TimerIds(s), Apply(s, e).effects) == TimerIds(Apply(s, e).s)
  {
    var st := Apply(s, e);
    match e
    case Play(form, env) => PlayTracksTimer(s, form, env);
    case Stop =>
      TimersAfterConcat(TimerIds(s), CleanupEffects(s), [Status("Stopped.")]);
      CleanupClearsTimer(TimerIds(s), s);
      NoIntervalCallsKeep({}, [Status("Stopped.")]);
    case MetadataReady(r, interval, hlsSnap, dashSnap) =>
      StartTracksTimer(UpdateStats(s, r), interval);
    case IntervalChanged(value) => StartTracksTimer(s, value);
    case QualitySelected(value) =>
      NoIntervalCallsKeep(TimerIds(s), st.effects);
    case AudioSelected(tracks, value) =>
      NoIntervalCallsKeep(TimerIds(s), st.effects);
    case _ =>
  }

  /** Over any run, the intervals left registered are exactly the session's
      timer: every `setInterval` is matched by a `clearInterval` before the
      next one, so at most one interval is ever registered. */
  lemma {:induction false} RunTracksTimer(s: Session, events: seq<Event>)
    ensures TimersAfter(TimerIds(s), Run(s, events).effects) == TimerIds(Run(s, events).s)
    ensures |TimersAfter(TimerIds(s), Run(s, events).effects)| <= 1
    decreases |events|
  {
    if events != [] {
      var first := Apply(s, events[0]);
      var rest := Run(first.s, events[1..]);
      ApplyTracksTimer(s, events[0]);
      RunTracksTimer(first.s, events[1..]);
      TimersAfterConcat(TimerIds(s), first.effects, rest.effects);
    }
  }

  /** From the freshly loaded page, at most one stats interval is ever
      registered, and it is the one the session holds. */
  lemma AtMostOneTimer(autoplay: bool, muted: bool, loop: bool, events: seq<Event>)
    ensures var st := Run(Initial(autoplay, muted, loop), events);
      TimersAfter({}, st.effects) == TimerIds(st.s) && |TimersAfter({}, st.effects)| <= 1
  {
    RunTracksTimer(Initial(autoplay, muted, loop), events);
  }

  // ---------------------------------------------------------------------
  // Object URLs

  /** Every object URL revoked in `effs` is `held` or `created`. */
  predicate RevokesAtMost(effs: seq<Effect>, held: Option<Handle>, created: Handle) {
    forall i :: 0 <= i < |effs| && effs[i].RevokeObjectUrl? ==>
      held == Some(effs[i].revoked) || effs[i].revoked == created
  }

  /** One event revokes at most the object URL the session holds or the one
      it creates; afterwards the session holds no object URL, its old one,
      or a new one, and the handle counter never goes back. */
  lemma ApplyHandles(s: Session, e: Event)
    ensures RevokesAtMost(Apply(s, e).effects, s.objectUrl, s.nextHandle)
    ensures var t := Apply(s, e).s;
      && t.nextHandle >= s.nextHandle
      && (t.objectUrl.None? || t.objectUrl == s.objectUrl || t.objectUrl == Some(s.nextHandle))
  {
    if e.Play? {
      PlayHandles(s, e.form, e.env);
    } else {
      OtherEventHandles(s, e);
    }
  }

  lemma PlayHandles(s: Session, form: PlayForm, env: Environment)
    ensures RevokesAtMost(HandlePlay(s, form, env).effects, s.objectUrl, s.nextHandle)
    ensures var t := HandlePlay(s, form, env).s;
      && t.nextHandle >= s.nextHandle
      && (t.objectUrl.None? || t.objectUrl == s.objectUrl || t.objectUrl == Some(s.nextHandle))
  {
  }

  /** Every event other than a play creates no object URL: it revokes at
      most the one the session holds, and afterwards holds that one or none. */
  lemma OtherEventHandles(s: Session, e: Event)
    requires !e.Play?
    ensures RevokesOnly(Apply(s, e).effects, s.objectUrl)
    ensures var t := Apply(s, e).s;
      t.nextHandle == s.nextHandle && (t.objectUrl.None? || t.objectUrl == s.objectUrl)
    ensures RevokesAtMost(Apply(s, e).effects, s.objectUrl, s.nextHandle)
    ensures var t := Apply(s, e).s;
      && t.nextHandle >= s.nextHandle
      && (t.objectUrl.None? || t.objectUrl == s.objectUrl || t.objectUrl == Some(s.nextHandle))
  {
    var st := Apply(s, e);
    match e
    case Stop =>
      assert st == HandleStop(s);
      ExtendWithoutTokens(CleanupEffects(s), [Status("Stopped.")], s.objectUrl);
    case MetadataReady(r, interval, hlsSnap, dashSnap) =>
      assert st == MetadataLoaded(s, r, interval, hlsSnap, dashSnap);
      ClearThenSetRevokesNothing(ClearTimerEffects(s), SetInterval(s.nextTimer, IntervalFor(interval)));
    case IntervalChanged(value) =>
      assert st == StartStatsLoop(s, value);
      ClearThenSetRevokesNothing(ClearTimerEffects(s), SetInterval(s.nextTimer, IntervalFor(value)));
    case TimerFired(r) =>
    case HlsOptionsChanged(snap) =>
    case DashStreamInitialized(snap) =>
    case QualitySelected(value) => assert st.s == ChooseQuality(s, value);
    case AudioSelected(tracks, value) => assert st.s == ChooseAudio(s, value);
  }

  lemma ClearThenSetRevokesNothing(c: seq<Effect>, set1: Effect)
    requires forall i :: 0 <= i < |c| ==> c[i].ClearInterval?
    requires set1.SetInterval?
    ensures forall i :: 0 <= i < |c + [set1]| ==> !(c + [set1])[i].RevokeObjectUrl?
  {
  }

  /** An object URL that was handed out but that the session no longer
      holds is never revoked by any later run of events. */
  lemma {:induction false} LostHandleNeverRevoked(s: Session, events: seq<Event>, h: Handle)
    requires h < s.nextHandle && s.objectUrl != Some(h)
    ensures forall i :: 0 <= i < |Run(s, events).effects| ==> Run(s, events).effects[i] != RevokeObjectUrl(h)
    decreases |events|
  {
    if events != [] {
      var first := Apply(s, events[0]);
      var rest := Run(first.s, events[1..]);
      ApplyHandles(s, events[0]);
      LostHandleNeverRevoked(first.s, events[1..], h);
      NotInConcat(first.effects, rest.effects, RevokeObjectUrl(h));
    }
  }

  lemma NotInConcat(a: seq<Effect>, b: seq<Effect>, x: Effect)
    requires forall i :: 0 <= i < |a| ==> a[i] != x
    requires forall i :: 0 <= i < |b| ==> b[i] != x
    ensures forall i :: 0 <= i < |a + b| ==> (a + b)[i] != x
  {
  }

  /** As written, a file played with an undetermined type keeps its object
      URL in the session; playing another file then overwrites it before
      the clean-up runs, so the first URL is created and, whatever happens
      afterwards, never revoked. */
  lemma UndeterminedFilePlayLeaks(s: Session, first: PlayForm, second: PlayForm,
                                  env1: Environment, env2: Environment, later: seq<Event>)
    requires first.file.Some? && ResolveType(first.streamType, first.file.value.name) == Auto
    requires second.file.Some?
    ensures var log := Run(s, [Play(first, env1), Play(second, env2)] + later).effects;
      CreateObjectUrl(s.nextHandle) in log && RevokeObjectUrl(s.nextHandle) !in log
  {
    var h := s.nextHandle;
    var st1 := HandlePlay(s, first, env1);
    UndeterminedFilePlayKeepsUrl(s, first, env1);
    var st2 := HandlePlay(st1.s, second, env2);
    FilePlayDropsHeldUrl(st1.s, second, env2);
    LostHandleNeverRevoked(st2.s, later, h);
    var tail := Run(st2.s, later).effects;
    RunTwoPlays(s, first, second, env1, env2, later);
    NotInConcat(st2.effects, tail, RevokeObjectUrl(h));
    NotInConcat(st1.effects, st2.effects + tail, RevokeObjectUrl(h));
    var log := Run(s, [Play(first, env1), Play(second, env2)] + later).effects;
    assert log[0] == CreateObjectUrl(h);
  }

  /** The first half: the file's object URL is created, not revoked, and
      stays in the session. */
  lemma UndeterminedFilePlayKeepsUrl(s: Session, form: PlayForm, env: Environment)
    requires form.file.Some? && ResolveType(form.streamType, form.file.value.name) == Auto
    ensures var st := HandlePlay(s, form, env);
      && st.s.objectUrl == Some(s.nextHandle) && st.s.nextHandle == s.nextHandle + 1
      && |st.effects| > 0 && st.effects[0] == CreateObjectUrl(s.nextHandle)
      && forall i :: 0 <= i < |st.effects| ==> st.effects[i] != RevokeObjectUrl(s.nextHandle)
  {
    PlayWithoutRoute(s, form, env);
  }

  /** The second half: playing a file forgets the object URL the session
      held without revoking it. */
  lemma FilePlayDropsHeldUrl(s: Session, form: PlayForm, env: Environment)
    requires form.file.Some? && s.objectUrl.Some? && s.objectUrl.value < s.nextHandle
    ensures var st := HandlePlay(s, form, env);
      && st.s.objectUrl != s.objectUrl && s.objectUrl.value < st.s.nextHandle
      && forall i :: 0 <= i < |st.effects| ==> st.effects[i] != RevokeObjectUrl(s.objectUrl.value)
  {
  }

  /** The log of two plays followed by more events, split by event. */
  lemma RunTwoPlays(s: Session, first: PlayForm, second: PlayForm,
                    env1: Environment, env2: Environment, later: seq<Event>)
    ensures var st1 := HandlePlay(s, first, env1);
      var st2 := HandlePlay(st1.s, second, env2);
      Run(s, [Play(first, env1), Play(second, env2)] + later).effects
        == st1.effects + (st2.effects + Run(st2.s, later).effects)
  {
    var events := [Play(first, env1), Play(second, env2)] + later;
    assert events[1..] == [Play(second, env2)] + later;
    assert ([Play(second, env2)] + later)[1..] == later;
  }
}

=== FILE: wrappers.dfy ===
/** Small shared datatypes: an optional value and the result of JavaScript's
    numeric conversions (an integer or NaN). */
module Wrappers {

  /** A value that may be absent; stands for JavaScript's `null`. */
  datatype Option<+T> = None | Some(value: T)

  /** The outcome of `Number(...)` or `Number.parseInt(...)` on a string:
      an integer, or NaN when the text is not a number. */
  datatype Num = Int(i: int) | NaN
}
